=== FILE: README.md ===
# Kalshi BTC 15-minute pipeline: candles, event log, paper backtest

This project models the offline part of a Kalshi trading bot written in
Python, and proves properties of that model.

**Candles.** Reference-price ticks are read from JSONL lines
(`parse_external_price_tick`, `iter_ticks`). Each tick is placed in a
five-minute bucket of New York local time (`candle_start_ms_utc`). The ticks
are folded into OHLC candles (`build_5m_candles`) and written as records
(`write_candles_jsonl`). The live script `scripts/live_15m_candles.py` is
written to run the same bucket-change logic one stdin line at a time, keeping
a "latest candle" snapshot and tick counters. As it stands it stops with
ImportError at its import line (scripts/live_15m_candles.py:16), before it
reads any line, because `Candle15m` and `build_15m_candles` do not exist.
The model describes the loop the script's body spells out.

**Event log.** `JsonlRecorder.append` / `extend` write one JSON object per
line. `read_jsonl` reads the lines back, skips blank ones, defaults a falsy
payload to `{}`, and stable-sorts the events by `ts_ms`.

**Backtest.** `ReplayEngine.run` feeds the sorted events to a handler, starting
from a fresh `BotState`. The handler in `scripts/replay_run.py` does three
things for each event:
- it passes venue-book events to a paper executor (`PaperExecutor.on_marketdata`);
- it asks the baseline strategy (`decide_orders`) for a buy/sell quote;
- it submits each intent to the executor (`submit_intent`), which acknowledges
  the order and fills it at once if it crosses the last known best prices.

## Design of the model

- JSON is the datatype `Json.Json`. A file line is `Blank | Garbage | Value(json)`:
  - `Blank` is an empty or whitespace-only line;
  - `Garbage` is a line `json.loads` rejects.
- Python's `int()`, `float()` and `str()` on decoded values are written out as
  `Json.ToInt`, `Json.ToFloat` and `Json.PyStr`.
- A time zone is a pair of total functions:
  - `offsetAt` maps a UTC instant to its offset;
  - `offsetForLocal` maps a local wall time to the offset used when converting
    it back.
- Bucket properties are stated under a fixed offset (`Bucketing.FixedOffset`).
- The ISO label `candle_start_local` is kept as the pair `LocalStamp(wallMs, offsetMs)`,
  the two things `isoformat()` renders.
- Candle builders:
  - The batch builder `Candles.Build5m` mirrors the generator: an open candle,
    emitted when the bucket changes and flushed at the end.
  - It has an independent reference: split the accepted ticks into maximal
    runs of equal bucket, then summarise each run (`Candles.RunCandle`).
  - `Candles.BuildIsRunCandles` proves the two agree.
  - The streaming method `LiveCandles.RunLive` is proved to emit exactly the
    batch builder's candles.
- `read_jsonl`'s sort is modelled as a stable insertion sort.
  - Stability is stated with per-timestamp filters (`Recorder.WithTs`).
  - `Recorder.StableSortUnique` shows that this pins the result down.
- Mutable objects become values threaded through pure functions:
  - the `BotState` dict;
  - the `PaperExecutor`;
  - the closure in `replay_run.py`, whose executor is the context value `X` of
    `Replay.Run`.

### Where the code and its description differ (the model follows the code)

- `read_jsonl` does not skip a malformed line. `json.loads`, `obj["ts_ms"]`,
  `int(...)` and `obj["type"]` all raise out of it, so the whole read fails.
  `RecorderLog.ParseLines` returns the index of the first such line and the
  fault.
- `scripts/live_15m_candles.py` imports `Candle15m` and `build_15m_candles`,
  and `kalshi_bot/io/candles.py` defines neither. The import therefore raises
  ImportError at scripts/live_15m_candles.py:16 and no line is ever read. The
  script's body buckets with the five-minute `candle_start_ms_utc` and tags its
  records `CANDLE_15M`. `LiveCandles.RunLive` models that body as if the import
  succeeded, with `Candle15m` taken to be a record with `Candle5m`'s ten fields.
  It is proved equal to the five-minute batch builder.

## Model

| member | source | states |
|---|---|---|
| `Bucketing.FloorToFiveMinutes` | src/kalshi_bot/io/candles.py:44-47 | the floored time's minute is a multiple of 5 in [minute-4, minute], seconds and below are zero, and the date and hour are unchanged |
| `Bucketing.FloorIsAlignment` | src/kalshi_bot/io/candles.py:44-47 | replacing the minute field is the same as rounding the wall time down to a multiple of 300000 ms |
| `Bucketing.CandleStart` | src/kalshi_bot/io/candles.py:50-59 | for any zone, the local start is five-minute aligned and is the floor of the timestamp's local wall time (wall <= ts + offset < wall + 300000); the UTC start is the local start minus the offset the zone gives it, and the label carries that offset |
| `Bucketing.BucketContains` | src/kalshi_bot/io/candles.py:50-59 | under a fixed offset, start <= ts < start + 300000 |
| `Bucketing.BucketWindow` | src/kalshi_bot/io/candles.py:50-59 | under a fixed offset, every timestamp in a bucket's window maps to that same bucket |
| `Bucketing.BucketIdempotent` | src/kalshi_bot/io/candles.py:50-59 | bucketing a bucket start returns the same start and label |
| `Bucketing.BucketMonotone` | src/kalshi_bot/io/candles.py:50-59 | under a fixed offset, a later timestamp never gets an earlier bucket |
| `Bucketing.BucketAlignedInUtc` | src/kalshi_bot/io/candles.py:50-59 | with an offset of whole five-minute steps, UTC starts are multiples of 300000 |
| `Bucketing.NewYorkExample` | src/kalshi_bot/io/candles.py:50-59 | at UTC-5, 09:59:59 and 10:00:01 local fall in buckets whose local starts are five minutes apart |
| `Json.ToInt` | src/kalshi_bot/io/candles.py:82 | `int()` refuses null, lists and objects, keeps integers as they are, maps `True`/`False` to 1/0 truncates a float toward zero, and reads a string exactly as `Decimal.ParseInt` does |
| `Decimal.ParseInt` | src/kalshi_bot/io/candles.py:82 | `int()` of a string succeeds iff it is an optional sign then one or more digits, and gives the signed value of the digits |
| `Json.ToFloat` | src/kalshi_bot/io/candles.py:83 | `float()` refuses null, lists and objects, maps `True`/`False` to 1.0/0.0, widens integers exactly, keeps floats, and reads a string exactly as `Decimal.ParseFloat` does |
| `Decimal.ParseFloat` | src/kalshi_bot/io/candles.py:83 | `float()` of integer text is the number `int()` reads from it; a leading '-' gives a non-positive value and a leading '+' the unsigned reading |
| `Decimal.ParseFloatExamples` | src/kalshi_bot/io/candles.py:83 | "1.5", "-.5" and "5." read as 1.5, -0.5 and 5.0; ".", "1.2.3" and "n/a" are refused |
| `Json.ConversionExamples` | src/kalshi_bot/io/candles.py:82-83 | `int("42") == 42`, `int("-7") == -7`, `int("1.5")` is refused, `float("1.5") == 1.5` and `float(True) == 1.0` |
| `Json.OrEmptyObject` | src/kalshi_bot/io/recorder.py:45 | `x or {}`: a truthy value is kept and a falsy one becomes the empty object |
| `Json.PyStr` | src/kalshi_bot/io/candles.py:84-85 | `str()` keeps a string and renders any other value as non-empty text |
| `Ticks.ParseTick` | src/kalshi_bot/io/candles.py:62-89 | None for blank, undecodable, non-object and non-EXTERNAL_PRICE lines and for a missing `ts_ms`; a tick's timestamp and mid are the converted fields; provider and symbol default to "" |
| `Ticks.ParseTickComplete` | src/kalshi_bot/io/candles.py:78-89 | an EXTERNAL_PRICE object whose `ts_ms` and `mid` convert always yields its tick |
| `Ticks.ParseTickAgrees` | src/kalshi_bot/io/candles.py:62-89 | the code as written raises exactly on decodable lines that are not objects, and otherwise agrees with `Ticks.ParseTick` |
| `Ticks.ParseTickCrashExample` | src/kalshi_bot/io/candles.py:74-78 | the line `[]` raises AttributeError in the code as written but yields None when corrected |
| `Ticks.ParseTickAsWritten` | src/kalshi_bot/io/candles.py:62-89 | raises iff the line decodes to a non-object; blank and undecodable lines give None; a tick comes only from an EXTERNAL_PRICE object |
| `Ticks.TicksOfAsWritten` | src/kalshi_bot/io/candles.py:92-98 | with the parser as written, reading a file raises iff some line decodes to a non-object, and otherwise gives the same ticks as the corrected reader |
| `Ticks.TicksOfMembers` | src/kalshi_bot/io/candles.py:92-98 | a tick is yielded iff some line parses to it |
| `Ticks.TicksOfAppend` | src/kalshi_bot/io/candles.py:92-98 | the ticks of two consecutive blocks of lines are the ticks of each block, in order |
| `Ticks.IterTicksConcat` | src/kalshi_bot/io/candles.py:92-98 | reading several files gives the ticks of their concatenated lines |
| `Candles.AcceptedExactly` | src/kalshi_bot/io/candles.py:108-110 | a tick is kept iff it has an empty symbol or the configured one, and nothing is dropped iff every tick matches |
| `Candles.AcceptedAppend` | src/kalshi_bot/io/candles.py:108-110 | filtering two consecutive blocks of ticks gives the survivors of each block, in order |
| `Candles.BuildFrom` | src/kalshi_bot/io/candles.py:106-139 | from an open candle the generator yields at least that candle first (same start), and never more candles than ticks plus the open one |
| `Candles.BuildFromShape` | src/kalshi_bot/io/candles.py:108-139 | the generator yields something iff a candle is open or some tick passes the filter; with an open candle of the configured symbol, every candle has that symbol |
| `Candles.Build5mShape` | src/kalshi_bot/io/candles.py:101-139 | `build_5m_candles` yields nothing iff no tick passes the symbol filter, and every candle has the configured symbol |
| `Candles.MaxMid` | src/kalshi_bot/io/candles.py:132 | the high bounds every mid of the bucket and is one of them |
| `Candles.MinMid` | src/kalshi_bot/io/candles.py:133 | the low is below every mid of the bucket and is one of them |
| `Candles.SeedIsRunCandle` | src/kalshi_bot/io/candles.py:117-128 | a freshly opened candle is the summary of the one-tick run |
| `Candles.AbsorbExtendsRun` | src/kalshi_bot/io/candles.py:131-136 | updating the open candle with a tick gives the summary of the run extended by that tick |
| `Candles.BuildFromRuns` | src/kalshi_bot/io/candles.py:108-139 | from an open candle, the generator emits one summary per run of the remaining accepted ticks |
| `Candles.BuildIsRunCandles` | src/kalshi_bot/io/candles.py:101-139 | `build_5m_candles` equals the per-run summaries of the accepted ticks: open/close from the first/last tick, high/low the extreme mids, ticks the run length, first/last_ts_ms from the first/last tick |
| `CandleProperties.RunsShape` | src/kalshi_bot/io/candles.py:108-139 | the runs are non-empty, uniform in bucket, differ from their neighbours, concatenate back to the ticks, and are empty only for no ticks |
| `CandleProperties.BuildTickTotal` | src/kalshi_bot/io/candles.py:108-139 | the candles' tick counts sum to the number of accepted ticks |
| `CandleProperties.BuildEmptyIff` | src/kalshi_bot/io/candles.py:108-139 | no candle is emitted iff no tick is accepted |
| `CandleProperties.BuildCandleContents` | src/kalshi_bot/io/candles.py:117-136 | every candle has the configured symbol, at least one tick, low <= open <= high and low <= close <= high |
| `CandleProperties.BuildAdjacentStartsDiffer` | src/kalshi_bot/io/candles.py:114-116 | neighbouring candles have different starts |
| `CandleProperties.BuildSorted` | src/kalshi_bot/io/candles.py:101-139 | on time-sorted ticks and a fixed offset, candle starts strictly increase and first_ts_ms <= last_ts_ms |
| `CandleProperties.ThreeTickExample` | src/kalshi_bot/io/candles.py:101-139 | mids 50000, 50010, 49990 in one window give one candle with open 50000, high 50010, low 49990, close 49990, 3 ticks |
| `CandleRecords.WriteCandlesJsonl` | src/kalshi_bot/io/candles.py:142-174 | one CANDLE_5M record per candle with the ten fields unchanged; `candles` is the count; `first`/`last` are the first/last start, both None when there are no candles |
| `CandleRecords.ToRecord` | scripts/live_15m_candles.py:39-52 | a record carries the requested tag, and its ten fields give back the candle |
| `CandleRecords.ToRecordInjective` | scripts/live_15m_candles.py:39-52 | two records are equal iff they have the same candle and the same tag |
| `LiveCandles.Step` | scripts/live_15m_candles.py:71-114 | an unparsable or foreign-symbol line changes nothing; an accepted tick bumps ticks_seen, sets last_tick_ms, and the snapshot becomes the record of the open candle, which holds the tick |
| `LiveCandles.StepBuild` | scripts/live_15m_candles.py:85-111 | each step appends exactly what the batch generator emits for that line, the open candle carrying the rest |
| `LiveCandles.FinishInv` | scripts/live_15m_candles.py:130-132 | the EOF flush appends the open candle once, completing the batch output |
| `LiveCandles.RunLive` | scripts/live_15m_candles.py:71-141 | the appended records are `build_5m_candles` on the same lines, tagged CANDLE_15M; ticks_seen and last_tick_ms describe the accepted ticks; the snapshot is the last candle's record; final_candle_ticks is its tick count, or 0 (with `Candle15m` taken as `Candle5m`'s ten fields, since the import at line 16 fails) |
| `Recorder.SortByTs` | src/kalshi_bot/io/recorder.py:46 | the result is sorted by ts_ms and is a permutation of the input |
| `Recorder.SortByTsStable` | src/kalshi_bot/io/recorder.py:46 | events with equal ts_ms keep their input order |
| `Recorder.StableSortUnique` | src/kalshi_bot/io/recorder.py:46 | two sorted sequences with the same per-timestamp order are equal, so the stable sort is unique |
| `RecorderLog.DecodeLine` | src/kalshi_bot/io/recorder.py:40-45 | a blank line is skipped; an undecodable one is an error; an event has the converted `ts_ms`, the raw `type` and the payload as `obj.get("payload") or {}`; an object with a convertible `ts_ms` and a `type` always decodes |
| `RecorderLog.ParseLinesEvents` | src/kalshi_bot/io/recorder.py:39-45 | a successful read holds exactly the decoded event of each non-blank line, in file order |
| `RecorderLog.EncodeEvent` | src/kalshi_bot/io/recorder.py:24 | the written line is an object with exactly the keys `ts_ms`, `type` and `payload`, holding the event's fields |
| `RecorderLog.Append` | src/kalshi_bot/io/recorder.py:22-25 | `append` creates the file if needed, keeps every existing line and adds the event's line at the end |
| `RecorderLog.Extend` | src/kalshi_bot/io/recorder.py:27-31 | `extend` creates the file if needed, keeps every existing line and adds one line per event, in order |
| `RecorderLog.ParseLines` | src/kalshi_bot/io/recorder.py:39-45 | the read succeeds iff every line decodes; otherwise the error names the first bad line |
| `RecorderLog.ReadJsonl` | src/kalshi_bot/io/recorder.py:34-47 | a missing file reads as []; the read fails iff a line fails; the events are sorted and a permutation of the decoded lines |
| `RecorderLog.ReadJsonlStable` | src/kalshi_bot/io/recorder.py:46 | events sharing a timestamp come back in file order |
| `RecorderLog.EncodeEventDecodes` | src/kalshi_bot/io/recorder.py:22-25 | the line `append` writes decodes to the same ts_ms and type, with the payload normalised |
| `RecorderLog.ParseLinesAppend` | src/kalshi_bot/io/recorder.py:39-45 | reading a + b is reading a, then b with its line numbers shifted |
| `RecorderLog.AppendThenRead` | src/kalshi_bot/io/recorder.py:22-25 | `append` adds exactly one line, read back after the old events |
| `RecorderLog.ExtendThenRead` | src/kalshi_bot/io/recorder.py:27-46 | after `extend`, the log reads as the old events followed by the new ones, stably sorted, falsy payloads as {} |
| `RecorderLog.FreshLogRoundTrip` | src/kalshi_bot/io/recorder.py:22-46 | events with object payloads, written to a new log, read back as themselves stably sorted by ts_ms |
| `RecorderLog.ExtendIsAppendEach` | src/kalshi_bot/io/recorder.py:22-31 | `extend` writes the same lines as one `append` per event |
| `RecorderLog.ExtendNothing` | src/kalshi_bot/io/recorder.py:27-38 | `extend([])` and doing nothing read the same |
| `Strategy.Clamp` | src/kalshi_bot/strategy/mm_baseline.py:25-26 | the result lies in [lo, hi] when lo <= hi, and equals x when x is already in range |
| `Strategy.RoundHalfEven` | src/kalshi_bot/strategy/mm_baseline.py:44 | within 0.5 of x, and even on a tie |
| `Strategy.RoundIsNearest` | src/kalshi_bot/strategy/mm_baseline.py:44 | no integer is closer to x than the rounded value |
| `Strategy.FairCents` | src/kalshi_bot/strategy/mm_baseline.py:44 | fair_cents lies in [1, 99], within half a cent of the clamped probability times 100, and is even on a tie |
| `Strategy.FairCentsNearest` | src/kalshi_bot/strategy/mm_baseline.py:44 | no whole cent is nearer the clamped probability times 100 than fair_cents |
| `Strategy.FairCentsExample` | src/kalshi_bot/strategy/mm_baseline.py:44 | 0.506 gives 51 cents and the tie 0.505 gives the even 50 |
| `Strategy.FairCentsOfWholeCent` | src/kalshi_bot/strategy/mm_baseline.py:44 | a fair probability of k/100 gives k cents |
| `Strategy.QuoteAround` | src/kalshi_bot/strategy/mm_baseline.py:45-46 | bid = max(1, fair - edge) and ask = min(99, fair + edge); for edge >= 0, 1 <= bid <= fair <= ask <= 99 |
| `Strategy.DecideOrders` | src/kalshi_bot/strategy/mm_baseline.py:29-51 | fair_prob is set lazily on every event and otherwise kept; only VENUE_BOOK quotes: a buy at `QuoteAround(FairCents(fair_prob), edge).bid` then a sell at its `.ask`, both of `size` YES, within 1..99; other fields are untouched |
| `Strategy.DecideReadsOnlyFair` | src/kalshi_bot/strategy/mm_baseline.py:29-51 | the intents depend only on the fair probability, not on orders, inventory or PnL |
| `Strategy.RepeatedBooksQuoteAlike` | src/kalshi_bot/strategy/mm_baseline.py:34-51 | a second VENUE_BOOK quotes exactly what the first did |
| `Strategy.DefaultQuoteExample` | src/kalshi_bot/strategy/mm_baseline.py:17-51 | with the defaults, a VENUE_BOOK gives buy@48 and sell@52, qty 1 |
| `Strategy.IntentKeyInjective` | src/kalshi_bot/strategy/mm_baseline.py:61 | keys `intent:{ts}:{i}` of one event are distinct for distinct i |
| `Strategy.FileIntents` | src/kalshi_bot/strategy/mm_baseline.py:60-61 | each intent lands under `intent:{ts}:{i}`; exactly those keys are added; no other entry changes |
| `Strategy.OnEvent` | src/kalshi_bot/strategy/mm_baseline.py:54-61 | each intent is stored under its key; exactly those keys are added; nothing is removed and no other entry changes |
| `Paper.NewExecutor` | src/kalshi_bot/sim/paper.py:28-32 | a new executor knows no prices and numbers orders from 1 |
| `Paper.RawOf` | src/kalshi_bot/sim/paper.py:36-38 | `raw` is used only when the payload is an object holding an object under "raw" |
| `Paper.OnMarketdata` | src/kalshi_bot/sim/paper.py:34-48 | only the best prices can change, and without a dict `raw` nothing changes |
| `Paper.Probe` | src/kalshi_bot/sim/paper.py:41-48 | probing keeps config and counter; the ask changes only if some pair is complete |
| `Paper.ProbeFirstComplete` | src/kalshi_bot/sim/paper.py:41-48 | the first pair whose two values both convert sets both prices |
| `Paper.ProbePartial` | src/kalshi_bot/sim/paper.py:41-48 | with no complete pair only the bid changes, to the bid of the last pair with both keys whose bid converts, and stays when there is none |
| `Paper.PartialBestBidExample` | src/kalshi_bot/sim/paper.py:36-48 | `best_bid` 40 beside `best_ask` "n/a" sets the bid to 40 and changes nothing else |
| `Paper.ProbeNoComplete` | src/kalshi_bot/sim/paper.py:41-48 | with no complete pair the ask is never written |
| `Paper.PartialUpdateExample` | src/kalshi_bot/sim/paper.py:44-48 | a bid that converts next to an ask that does not overwrites the bid and keeps the old ask |
| `Paper.QuoteExample` | src/kalshi_bot/sim/paper.py:41-46 | {"bid": 49, "ask": 51} sets the prices to 49/51 |
| `Paper.PaperIdInjective` | src/kalshi_bot/sim/paper.py:51-52 | `paper:n` ids are equal iff the numbers are |
| `Paper.FillEvent` | src/kalshi_bot/sim/paper.py:60-74 | the fill carries the order id, the submitted price, and qty defaulting to 0 |
| `Paper.AckEvent` | src/kalshi_bot/sim/paper.py:55 | an ORDER_ACK at ts_ms whose payload carries `order_id` and the submitted intent |
| `Paper.SubmitIntent` | src/kalshi_bot/sim/paper.py:50-76 | returns paper:n and advances n; one ACK carrying the id and the intent (`AckEvent`), then a FILL iff fill_on_cross and a cross with both prices known; the order stays open iff not filled; no other order, inventory, PnL or fair value changes |
| `Paper.CrossingExample` | src/kalshi_bot/sim/paper.py:64-69 | at 49/51, buy 51 and sell 49 fill while buy 50 and sell 50 rest |
| `Paper.NoQuoteNoFill` | src/kalshi_bot/sim/paper.py:64-65 | without both best prices, nothing fills |
| `Replay.Run` | src/kalshi_bot/sim/replay.py:27-32 | the read error, or the left fold of the handler over the sorted events from a fresh state |
| `Replay.CallsChain` | src/kalshi_bot/sim/replay.py:29-32 | one handler call per event, in order, each on the previous call's result, starting fresh; the result is the last call's |
| `Replay.FoldAppend` | src/kalshi_bot/sim/replay.py:30-31 | replaying a + b is replaying b from the state a leaves |
| `Replay.RunEmpty` | src/kalshi_bot/sim/replay.py:28-32 | a log without events returns the default `BotState` |
| `Replay.RunInTimeOrder` | src/kalshi_bot/sim/replay.py:28-31 | the handler sees non-decreasing ts_ms (a corollary of the sortedness `RecorderLog.ReadJsonl` ensures) |
| `Replay.RunIgnoresFileOrder` | src/kalshi_bot/sim/replay.py:28-31 | two logs whose events agree timestamp by timestamp replay to the same result, whatever the file order across timestamps |
| `Replay.SpeedIrrelevant` | src/kalshi_bot/sim/replay.py:19-32 | the speed setting does not affect the result (a corollary of `Run` never reading it) |
| `Backtest.SubmitAll` | scripts/replay_run.py:26-27 | submitting advances the id counter by the number of intents and leaves inventory, PnL and fair value alone |
| `Backtest.SubmitAllGrows` | scripts/replay_run.py:26-27 | existing orders are kept, and only the newly numbered ids are added |
| `Backtest.SubmitAllRests` | scripts/replay_run.py:26-27 | the j-th intent is open under paper:(n+j) iff it did not fill |
| `Backtest.OnEventSound` | scripts/replay_run.py:21-27 | inventory and PnL stay 0, fair value becomes 0.50, the counter advances by 2 per VENUE_BOOK and 0 otherwise, and no order is removed |
| `Backtest.OnEvent` | scripts/replay_run.py:21-27 | inventory and PnL are untouched, fair value is set, the executor keeps its config and uses two ids per VENUE_BOOK; a non-book event changes neither the orders nor the executor |
| `Backtest.CountBooks` | scripts/replay_run.py:22 | the count is 0 iff no event is a VENUE_BOOK and equals the length iff every event is |
| `Backtest.RunBacktest` | scripts/replay_run.py:17-29 | the backtest fails iff reading the log fails, with the same error |
| `Backtest.OnEventBook` | scripts/replay_run.py:22-27 | a venue book updates prices before quoting, and each quote rests iff it does not cross the updated prices |
| `Backtest.FoldSound` | scripts/replay_run.py:21-29 | across a replay the invariants hold, ids advance by 2 per VENUE_BOOK and fair value is 0.50 after any event |
| `Backtest.BacktestInvariants` | scripts/replay_run.py:17-29 | after a replay, inv_yes = pnl_usd = 0, fair_prob = 0.50 iff the log is non-empty, next id = 1 + 2 x #VENUE_BOOK, and every open order has an issued id |
| `Backtest.BacktestEmptyLog` | scripts/replay_run.py:17-29 | a missing log leaves the default state and a fresh executor |
| `Events.EventTypeNames` | src/kalshi_bot/types.py:7-16 | each kind has one name and each name one kind |
| `Events.EightEventTypes` | src/kalshi_bot/types.py:7-16 | there are exactly eight distinct kinds |
| `Events.MakeEvent` | src/kalshi_bot/types.py:19-23 | a built event has its timestamp and payload, and is of its kind and no other |
| `Events.Mid` | src/kalshi_bot/types.py:26-34 | the mid is equidistant from bid and ask and lies between them when bid <= ask |

## Left out

- JSON text. `json.loads` / `json.dumps` are abstracted as described above. A
  decodable line is its JSON value. Key order, `ensure_ascii` and separators
  are not modelled.
- `Json.ToInt`, `Json.ToFloat`, `Json.PyStr`: string parsing goes through
  `Decimal.ParseInt` (an optional sign plus digits) and `Decimal.ParseFloat`
  (plain decimals with an optional sign). Text Python also accepts, such as
  surrounding whitespace, underscores, exponents, `inf` and `nan`, is refused
  here where Python returns a number.
  `str()` of a string, `None`, a boolean or an integer is exact. `str()` of a
  float, list or object is a fixed placeholder text.
- Time zones. The zone database, DST folds and gaps are replaced by the two
  offset functions. Properties are proved under a fixed offset. The ISO label
  is kept as its (wall time, offset) pair rather than as text.
- Floating point. Mids, fair probabilities and quantities are exact reals.
  - `ts_ms / 1000.0` and `int(timestamp() * 1000)` are taken as exact integer
    milliseconds.
  - `round(0.5 * 100)` and friends are computed on exact reals.
- Bounded numbers. The model's integers and reals are unbounded, so three
  Python errors do not arise in it:
  - `candle_start_ms_utc` raises for a `ts_ms` outside the years 1 to 9999
    that `datetime` can hold;
  - `float(payload["mid"])` raises OverflowError for an integer too large for
    a float, and the parser does not catch it;
  - `int()` of an infinite float raises OverflowError.
- Filesystem and clock effects are not modelled:
  - `mkdir`, `touch`, and the temporary-file rename of the snapshot;
  - stdin/stdout/stderr, the periodic `STATS` line (driven by the wall clock),
    and the timestamp of `STATS_FINAL`;
  - argparse and directory globbing in `scripts/build_5m_candles.py`.
  What the scripts write is modelled as values: the records of
  `LiveCandles.RunLive`, the snapshot, and the final counters.
- Ticks.TicksOf: reads each file with the corrected parser, and so does
  `Ticks.IterTicks`. With the parser as written, a line that decodes to a
  non-object stops `iter_ticks`, `build_5m_candles` and `write_candles_jsonl`
  with AttributeError. `Ticks.TicksOfAsWritten` shows exactly when that
  happens and that the ticks agree otherwise. The candle properties are
  stated for the corrected reader.
- LiveCandles.Step: the live script calls the unguarded
  `parse_external_price_tick`. The model uses the corrected parser (see
  Findings), so a non-object JSON line is ignored here rather than stopping
  the script.
- The `emit` callback of `submit_intent` becomes the returned event list.
  `replay_run.py` discards it.
- Intents are typed records from the strategy. `int(intent.get("price"))` on a
  hand-made dict without a price, which would raise, is not modelled.
- State.Fresh is a constant value: inventory 0.0, PnL 0.0, no fair probability,
  no orders. Dafny maps are values, so two fresh states never share a map.
  There is no separate lemma for these defaults.
- `Fill.fee` defaulting to None is the constructor `Events.NewFill`. It has no
  contract of its own.
- RecorderLog.ExtendIsAppendEach: excludes `extend([])` on a missing file.
  There `extend` creates an empty file and appending nothing does not.
  `RecorderLog.ExtendNothing` shows the two still read the same.
- Backtest.BacktestInvariants: states that every open order has an issued id.
  It does not give the whole-run set of rested orders. That set is fixed per
  event by `Backtest.OnEventBook` and kept across the replay by
  `Backtest.FoldSound` (no order is ever removed).
- Network collectors, REST/WebSocket clients, venue stubs and RSA-PSS request
  signing are outside the modelled pipeline.

## Findings

| source | as written | input that shows it | evidently intended | confidence | as-written member | corrected member |
|---|---|---|---|---|---|---|
| src/kalshi_bot/io/candles.py:74-78 | `obj.get("type")` runs on whatever `json.loads` returned, so a line holding a JSON array, number, string, boolean or null raises AttributeError | the line `[]` | return None for every line that is not a usable EXTERNAL_PRICE record, as the docstring says | not executed | `Ticks.ParseTickAsWritten` (exhibited by `Ticks.ParseTickCrashExample`) | `Ticks.ParseTick` |

=== FILE: backtest.dfy ===
/**
 * The backtest wiring of `scripts/replay_run.py`: a replay whose handler
 * feeds venue books to a paper executor, asks the baseline strategy for
 * intents and submits each one at the event's timestamp, discarding the
 * acknowledgements and fills.
 */
module Backtest {
  import opened Base
  import opened Events
  import opened State
  import opened Strategy
  import opened Paper
  import opened Replay
  import opened RecorderLog

  /** The `for intent in intents: execu.submit_intent(...)` loop, events discarded. */
  function SubmitAll(intents: seq<Intent>, st: BotState, px: PaperExecutor, tsMs: int): (r: (BotState, PaperExecutor))
    ensures r.1 == px.(nextId := px.nextId + |intents|)
    ensures r.0.invYes == st.invYes && r.0.pnlUsd == st.pnlUsd && r.0.fairProb == st.fairProb
    decreases |intents|
  {
    if |intents| == 0 then (st, px)
    else
      var s := SubmitIntent(px, intents[0], st, tsMs);
      SubmitAll(intents[1..], s.st, s.px, tsMs)
  }

  /** The executor after the market-data step: only a venue book is passed to `on_marketdata`. */
  function Quoted(ev: Event, px: PaperExecutor): PaperExecutor {
    if ev.Is(VENUE_BOOK) then OnMarketdata(px, ev) else px
  }

  /** The `on_event` closure, with the executor it captures made explicit. */
  function OnEvent(ev: Event, st: BotState, px: PaperExecutor): (r: (BotState, PaperExecutor))
    ensures r.0.invYes == st.invYes && r.0.pnlUsd == st.pnlUsd && r.0.fairProb.Some?
    ensures r.1.cfg == px.cfg
    ensures r.1.nextId == px.nextId + (if ev.Is(VENUE_BOOK) then 2 else 0)
    ensures !ev.Is(VENUE_BOOK) ==> r.0.openOrders == st.openOrders && r.1 == px
  {
    var d := DecideOrders(ev, st, DefaultConfig);
    SubmitAll(d.intents, d.state, Quoted(ev, px), ev.tsMs)
  }

  /** `main`: the default replay of a log with a fresh default executor. */
  function RunBacktest(log: LogFile): (r: Result<(BotState, PaperExecutor), ReadError>)
    ensures r.Ok? <==> ReadJsonl(log).Ok?
    ensures r.Err? ==> r.error == ReadJsonl(log).error
  {
    Run(DefaultReplayConfig, log, NewExecutor(DefaultPaperConfig), OnEvent)
  }

  // ---------------------------------------------------------------------
  // Order bookkeeping
  // ---------------------------------------------------------------------

  /** Every open order is filed under a paper id already handed out. */
  ghost predicate IdsBelow(orders: map<string, Intent>, n: nat) {
    forall k :: k in orders ==> exists j :: 1 <= j < n && k == PaperId(j)
  }

  /** An id not yet handed out is not among the open orders. */
  lemma FreshId(orders: map<string, Intent>, n: nat, m: nat)
    requires IdsBelow(orders, n) && m >= n
    ensures PaperId(m) !in orders
  {
    if PaperId(m) in orders {
      var j :| 1 <= j < n && PaperId(m) == PaperId(j);
      PaperIdInjective(m, j);
    }
  }

  /** `after` keeps every order of `before` and adds only orders with ids `lo` to `hi - 1`. */
  ghost predicate Grows(before: map<string, Intent>, after: map<string, Intent>, lo: nat, hi: nat) {
    && (forall k :: k in before ==> k in after && after[k] == before[k])
    && (forall k :: k in after && k !in before ==> exists j :: lo <= j < hi && k == PaperId(j))
  }

  /** The order submitted under id `n` is open exactly when it did not fill, and then holds the intent. */
  ghost predicate RestsIff(orders: map<string, Intent>, n: nat, i: Intent, px: PaperExecutor) {
    && (PaperId(n) in orders <==> !Fills(i, px))
    && (PaperId(n) in orders ==> orders[PaperId(n)] == i)
  }

  lemma SubmitOneOrders(i: Intent, st: BotState, px: PaperExecutor, tsMs: int)
    requires px.nextId >= 1 && IdsBelow(st.openOrders, px.nextId)
    ensures var r := SubmitIntent(px, i, st, tsMs).st.openOrders;
      && IdsBelow(r, px.nextId + 1)
      && Grows(st.openOrders, r, px.nextId, px.nextId + 1)
      && RestsIff(r, px.nextId, i, px)
  {
    var n := px.nextId;
    FreshId(st.openOrders, n, n);
    var r := SubmitIntent(px, i, st, tsMs).st.openOrders;
    assert forall k :: k in r ==> k in st.openOrders || k == PaperId(n);
  }

  /** Submitting intents with fresh ids keeps every existing order and adds only the new ids. */
  lemma {:induction false} SubmitAllGrows(intents: seq<Intent>, st: BotState, px: PaperExecutor, tsMs: int)
    requires px.nextId >= 1 && IdsBelow(st.openOrders, px.nextId)
    ensures var r := SubmitAll(intents, st, px, tsMs).0.openOrders;
      && IdsBelow(r, px.nextId + |intents|)
      && Grows(st.openOrders, r, px.nextId, px.nextId + |intents|)
    decreases |intents|
  {
    if |intents| > 0 {
      var n := px.nextId;
      var s := SubmitIntent(px, intents[0], st, tsMs);
      SubmitOneOrders(intents[0], st, px, tsMs);
      SubmitAllGrows(intents[1..], s.st, s.px, tsMs);
      SubmitAllCons(intents, st, px, tsMs);
      GrowsTrans(st.openOrders, s.st.openOrders, SubmitAll(intents[1..], s.st, s.px, tsMs).0.openOrders,
                 n, n + 1, n + |intents|);
    }
  }

  /** Submitting several intents is submitting the first, then the rest. */
  lemma {:induction false} SubmitAllCons(intents: seq<Intent>, st: BotState, px: PaperExecutor, tsMs: int)
    requires |intents| > 0
    ensures var s := SubmitIntent(px, intents[0], st, tsMs);
      SubmitAll(intents, st, px, tsMs) == SubmitAll(intents[1..], s.st, s.px, tsMs)
  {
  }

  /** Growth by ids `lo..mid-1`, then by `mid..hi-1`, is growth by `lo..hi-1`. */
  lemma GrowsTrans(a: map<string, Intent>, b: map<string, Intent>, c: map<string, Intent>, lo: nat, mid: nat, hi: nat)
    requires lo <= mid <= hi && Grows(a, b, lo, mid) && Grows(b, c, mid, hi)
    ensures Grows(a, c, lo, hi)
  {
    forall k | k in c && k !in a
      ensures exists j :: lo <= j < hi && k == PaperId(j)
    {
      if k in b {
        var j :| lo <= j < mid && k == PaperId(j);
      } else {
        var j :| mid <= j < hi && k == PaperId(j);
      }
    }
  }

  /** Orders added later under other ids leave an earlier order's status as it was. */
  lemma RestsKept(mid: map<string, Intent>, r: map<string, Intent>, n: nat, hi: nat, i: Intent, px: PaperExecutor)
    requires RestsIff(mid, n, i, px) && Grows(mid, r, n + 1, hi)
    ensures RestsIff(r, n, i, px)
  {
    if PaperId(n) in r && PaperId(n) !in mid {
      var j :| n + 1 <= j < hi && PaperId(n) == PaperId(j);
      PaperIdInjective(n, j);
    }
  }

  /** The first of several submitted intents is open exactly when it did not fill. */
  lemma SubmitAllFirstRests(intents: seq<Intent>, st: BotState, px: PaperExecutor, tsMs: int)
    requires px.nextId >= 1 && IdsBelow(st.openOrders, px.nextId) && |intents| > 0
    ensures RestsIff(SubmitAll(intents, st, px, tsMs).0.openOrders, px.nextId, intents[0], px)
  {
    var s := SubmitIntent(px, intents[0], st, tsMs);
    SubmitOneOrders(intents[0], st, px, tsMs);
    SubmitAllGrows(intents[1..], s.st, s.px, tsMs);
    RestsKept(s.st.openOrders, SubmitAll(intents[1..], s.st, s.px, tsMs).0.openOrders,
              px.nextId, px.nextId + |intents|, intents[0], px);
  }

  /** Each submitted intent is left open under its own id exactly when it did not fill. */
  lemma SubmitAllRests(intents: seq<Intent>, st: BotState, px: PaperExecutor, tsMs: int)
    requires px.nextId >= 1 && IdsBelow(st.openOrders, px.nextId)
    ensures var r := SubmitAll(intents, st, px, tsMs).0.openOrders;
      forall j :: 0 <= j < |intents| ==> RestsIff(r, px.nextId + j, intents[j], px)
  {
    forall j | 0 <= j < |intents|
      ensures RestsIff(SubmitAll(intents, st, px, tsMs).0.openOrders, px.nextId + j, intents[j], px)
    {
      SubmitAllRestsAt(intents, st, px, tsMs, j);
    }
  }

  /** The `j`-th submitted intent is open under id `nextId + j` exactly when it did not fill. */
  lemma {:induction false} SubmitAllRestsAt(intents: seq<Intent>, st: BotState, px: PaperExecutor, tsMs: int, j: nat)
    requires px.nextId >= 1 && IdsBelow(st.openOrders, px.nextId) && j < |intents|
    ensures RestsIff(SubmitAll(intents, st, px, tsMs).0.openOrders, px.nextId + j, intents[j], px)
    decreases j
  {
    if j == 0 {
      SubmitAllFirstRests(intents, st, px, tsMs);
    } else {
      var s := SubmitIntent(px, intents[0], st, tsMs);
      SubmitOneIds(intents[0], st, px, tsMs);
      SubmitAllRestsAt(intents[1..], s.st, s.px, tsMs, j - 1);
      RestsAtStep(intents, st, px, tsMs, j);
    }
  }

  /** The inductive step of `SubmitAllRestsAt`: the rest's `(j-1)`-th order is the whole's `j`-th. */
  lemma {:induction false} RestsAtStep(intents: seq<Intent>, st: BotState, px: PaperExecutor, tsMs: int, j: nat)
    requires 1 <= j < |intents|
    requires var s := SubmitIntent(px, intents[0], st, tsMs);
      RestsIff(SubmitAll(intents[1..], s.st, s.px, tsMs).0.openOrders, s.px.nextId + (j - 1), intents[1..][j - 1], s.px)
    ensures RestsIff(SubmitAll(intents, st, px, tsMs).0.openOrders, px.nextId + j, intents[j], px)
  {
    var s := SubmitIntent(px, intents[0], st, tsMs);
    SubmitAllCons(intents, st, px, tsMs);
    RestsShift(SubmitAll(intents[1..], s.st, s.px, tsMs).0.openOrders, intents, j, px, s.px);
  }

  lemma SubmitOneIds(i: Intent, st: BotState, px: PaperExecutor, tsMs: int)
    requires px.nextId >= 1 && IdsBelow(st.openOrders, px.nextId)
    ensures IdsBelow(SubmitIntent(px, i, st, tsMs).st.openOrders, px.nextId + 1)
  {
    SubmitOneOrders(i, st, px, tsMs);
  }

  /** The status of the rest's `(j-1)`-th order is that of the whole's `j`-th. */
  lemma RestsShift(r: map<string, Intent>, intents: seq<Intent>, j: nat, px: PaperExecutor, px': PaperExecutor)
    requires 1 <= j < |intents| && px' == px.(nextId := px.nextId + 1)
    requires RestsIff(r, px'.nextId + (j - 1), intents[1..][j - 1], px')
    ensures RestsIff(r, px.nextId + j, intents[j], px)
  {
    assert intents[1..][j - 1] == intents[j];
    RestsRenumber(r, j, intents[j], px, px');
  }

  /** A fill decision does not read the id counter, so the later submissions' statuses carry over. */
  lemma RestsRenumber(r: map<string, Intent>, j: nat, i: Intent, px: PaperExecutor, px': PaperExecutor)
    requires j >= 1 && px' == px.(nextId := px.nextId + 1)
    requires RestsIff(r, px'.nextId + (j - 1), i, px')
    ensures RestsIff(r, px.nextId + j, i, px)
  {
    assert px'.nextId + (j - 1) == px.nextId + j;
    assert Fills(i, px') == Fills(i, px);
  }

  // ---------------------------------------------------------------------
  // End-to-end invariants
  // ---------------------------------------------------------------------

  /** What every replay state satisfies. */
  ghost predicate Sound(st: BotState, px: PaperExecutor) {
    && st.invYes == 0.0 && st.pnlUsd == 0.0
    && (st.fairProb.None? || st.fairProb == Some(DefaultConfig.baseFair))
    && px.cfg == DefaultPaperConfig && px.nextId >= 1
    && IdsBelow(st.openOrders, px.nextId)
  }

  /** Any event keeps the replay invariant and leaves the fair value at the default. */
  lemma OnEventSound(ev: Event, st: BotState, px: PaperExecutor)
    requires Sound(st, px)
    ensures var r := OnEvent(ev, st, px);
      && Sound(r.0, r.1)
      && r.0.fairProb == Some(DefaultConfig.baseFair)
      && r.1.nextId == px.nextId + (if ev.Is(VENUE_BOOK) then 2 else 0)
      && Grows(st.openOrders, r.0.openOrders, px.nextId, r.1.nextId)
  {
    var d := DecideOrders(ev, st, DefaultConfig);
    SubmitAllGrows(d.intents, d.state, Quoted(ev, px), ev.tsMs);
  }

  /**
   * A venue book updates the executor's prices first; then its buy and
   * sell are submitted under the next two ids, each left open exactly
   * when it does not cross the updated prices.
   */
  lemma OnEventBook(ev: Event, st: BotState, px: PaperExecutor)
    requires Sound(st, px) && ev.Is(VENUE_BOOK)
    ensures var r := OnEvent(ev, st, px);
      var q := OnMarketdata(px, ev);
      var intents := DecideOrders(ev, st, DefaultConfig).intents;
      && r.1.bestBid == q.bestBid && r.1.bestAsk == q.bestAsk
      && (PaperId(px.nextId) in r.0.openOrders <==> !Crosses(intents[0], q))
      && (PaperId(px.nextId + 1) in r.0.openOrders <==> !Crosses(intents[1], q))
  {
    var d := DecideOrders(ev, st, DefaultConfig);
    var q := OnMarketdata(px, ev);
    SubmitAllRests(d.intents, d.state, q, ev.tsMs);
    assert RestsIff(OnEvent(ev, st, px).0.openOrders, px.nextId + 0, d.intents[0], q);
    assert RestsIff(OnEvent(ev, st, px).0.openOrders, px.nextId + 1, d.intents[1], q);
  }

  /** The number of venue book events. */
  function CountBooks(events: seq<Event>): (n: nat)
    ensures n <= |events|
    ensures n == 0 <==> forall i :: 0 <= i < |events| ==> !events[i].Is(VENUE_BOOK)
    ensures n == |events| <==> forall i :: 0 <= i < |events| ==> events[i].Is(VENUE_BOOK)
  {
    if |events| == 0 then 0
    else
      assert forall i :: 0 < i < |events| ==> events[i] == events[1..][i - 1];
      (if events[0].Is(VENUE_BOOK) then 1 else 0) + CountBooks(events[1..])
  }

  lemma {:induction false} FoldSound(events: seq<Event>, st: BotState, px: PaperExecutor)
    requires Sound(st, px)
    ensures var r := Fold(events, st, px, OnEvent);
      && Sound(r.0, r.1)
      && r.1.nextId == px.nextId + 2 * CountBooks(events)
      && (|events| > 0 ==> r.0.fairProb == Some(DefaultConfig.baseFair))
      && (|events| == 0 ==> r == (st, px))
      && (forall k :: k in st.openOrders ==> k in r.0.openOrders && r.0.openOrders[k] == st.openOrders[k])
    decreases |events|
  {
    if |events| > 0 {
      OnEventSound(events[0], st, px);
      var next := OnEvent(events[0], st, px);
      FoldSound(events[1..], next.0, next.1);
    }
  }

  /**
   * A whole backtest: inventory and PnL stay 0, the fair value is the
   * default 0.50 once any event was seen, two ids are used per venue book,
   * and every order still open carries an id that was handed out.
   */
  lemma BacktestInvariants(log: LogFile)
    requires RunBacktest(log).Ok?
    ensures var events := ReadJsonl(log).value;
      var r := RunBacktest(log).value;
      && r.0.invYes == 0.0 && r.0.pnlUsd == 0.0
      && r.0.fairProb == (if |events| > 0 then Some(0.5) else None)
      && r.1.nextId == 1 + 2 * CountBooks(events)
      && IdsBelow(r.0.openOrders, r.1.nextId)
  {
    var events := ReadJsonl(log).value;
    assert IdsBelow(Fresh.openOrders, 1);
    FoldSound(events, Fresh, NewExecutor(DefaultPaperConfig));
  }

  /** An empty or missing log ends where it started: no fair value, no orders, no ids used. */
  lemma BacktestEmptyLog()
    ensures RunBacktest(Missing) == Ok((Fresh, NewExecutor(DefaultPaperConfig)))
  {
  }
}

=== FILE: base.dfy ===
/** Small shared vocabulary: optional values, results, and sequence helpers. */
module Base {

  /** A value that may be absent; Python's `Optional[T]` and `None`. */
  datatype Option<+T> = None | Some(value: T) {
    function GetOr(default: T): T {
      match this
      case Some(v) => v
      case None => default
    }
  }

  /** The outcome of an operation that the source lets raise. */
  datatype Result<+T, +E> = Ok(value: T) | Err(error: E)

  /** The last element of a non-empty sequence. */
  function Last<T>(s: seq<T>): T
    requires |s| > 0
  {
    s[|s| - 1]
  }

  /** Concatenation of a sequence of sequences. */
  function Flatten<T>(ss: seq<seq<T>>): seq<T>
  {
    if |ss| == 0 then [] else ss[0] + Flatten(ss[1..])
  }

  lemma FlattenAppend<T>(a: seq<seq<T>>, b: seq<seq<T>>)
    ensures Flatten(a + b) == Flatten(a) + Flatten(b)
  {
    if |a| > 0 {
      assert (a + b)[1..] == a[1..] + b;
      FlattenAppend(a[1..], b);
    } else {
      assert a + b == b;
    }
  }
}

=== FILE: bucketing.dfy ===
/**
 * Five-minute buckets aligned to local wall-clock time
 * (`_floor_dt_to_5m` and `candle_start_ms_utc` in `kalshi_bot/io/candles.py`).
 *
 * Times are integer milliseconds. A local wall time is counted in
 * milliseconds from the local epoch, so its date, hour and minute fields are
 * the usual quotient/remainder decomposition of that count.
 */
module Bucketing {

  const MinuteMs: int := 60000
  const HourMs: int := 3600000
  const BucketMs: int := 300000

  /**
   * A time zone, as the two lookups the conversion needs: the UTC offset in
   * force at a UTC instant, and the offset the zone applies when a local wall
   * time is converted back to UTC (given the offset of the instant it was
   * derived from, which is how the `fold` attribute of an ambiguous time
   * survives `replace`). Offsets are added to UTC to get local time.
   */
  datatype Zone = Zone(offsetAt: int -> int, offsetForLocal: (int, int) -> int)

  /** A zone with one offset at every instant (no DST transitions). */
  ghost predicate FixedOffset(z: Zone, c: int) {
    && (forall t :: z.offsetAt(t) == c)
    && (forall w, o :: z.offsetForLocal(w, o) == c)
  }

  function FixedZone(c: int): (z: Zone)
    ensures FixedOffset(z, c)
  {
    Zone(t => c, (w, o) => c)
  }

  /** The minute field (0..59) of a local wall time. */
  function MinuteOf(w: int): int {
    (w / MinuteMs) % 60
  }

  /** Division by a positive divisor is determined by any quotient/remainder pair. */
  lemma DivModUnique(a: int, d: int, q: int, r: int)
    requires d > 0 && a == q * d + r && 0 <= r < d
    ensures a / d == q && a % d == r
  {
    var q0, r0 := a / d, a % d;
    assert a == q0 * d + r0;
    assert (q0 - q) * d == r - r0;
    if q0 > q {
      MulAtLeast(q0 - q, d);
    } else if q0 < q {
      MulAtLeast(q - q0, d);
    }
  }

  lemma DivMonotone(a: int, b: int, d: int)
    requires d > 0 && a <= b
    ensures a / d <= b / d
  {
    if a / d > b / d {
      MulAtLeast(a / d - b / d, d);
    }
  }

  lemma {:induction false} MulAtLeast(x: int, d: int)
    requires x >= 1 && d >= 1
    ensures x * d >= d
  {
    if x > 1 {
      MulAtLeast(x - 1, d);
      assert x * d == (x - 1) * d + d;
    }
  }

  /**
   * `_floor_dt_to_5m`: the same date and hour, the minute rounded down to a
   * multiple of five, seconds and below set to zero.
   */
  function FloorToFiveMinutes(w: int): (r: int)
    ensures MinuteOf(r) % 5 == 0
    ensures MinuteOf(w) - 4 <= MinuteOf(r) <= MinuteOf(w)
    ensures r % MinuteMs == 0
    ensures r / HourMs == w / HourMs
  {
    var h := w / HourMs;
    var m := MinuteOf(w);
    var k := m / 5 * 5;
    assert 0 <= k <= m < 60 && m - 4 <= k;
    assert k % 5 == 0 by {
      DivModUnique(k, 5, m / 5, 0);
    }
    var r := h * HourMs + k * MinuteMs;
    assert r == (h * 60 + k) * MinuteMs;
    DivModUnique(r, MinuteMs, h * 60 + k, 0);
    DivModUnique(h * 60 + k, 60, h, k);
    assert 0 <= k * MinuteMs < HourMs;
    DivModUnique(r, HourMs, h, k * MinuteMs);
    r
  }

  /** Flooring the minute field is flooring the wall time to a multiple of five minutes. */
  lemma FloorIsAlignment(w: int)
    ensures FloorToFiveMinutes(w) == w - w % BucketMs
    ensures FloorToFiveMinutes(w) % BucketMs == 0
  {
    var h := w / HourMs;
    var rest := w % HourMs;
    var m := rest / MinuteMs;
    var s := rest % MinuteMs;
    assert w == (h * 60 + m) * MinuteMs + s;
    DivModUnique(w, MinuteMs, h * 60 + m, s);
    DivModUnique(h * 60 + m, 60, h, m);
    assert MinuteOf(w) == m;
    var k := m / 5;
    var j := m % 5;
    assert w == (h * 12 + k) * BucketMs + (j * MinuteMs + s);
    DivModUnique(w, BucketMs, h * 12 + k, j * MinuteMs + s);
    assert FloorToFiveMinutes(w) == (h * 12 + k) * BucketMs;
    DivModUnique(FloorToFiveMinutes(w), BucketMs, h * 12 + k, 0);
  }

  /** The local start of a bucket: wall time and the UTC offset shown with it. */
  datatype LocalStamp = LocalStamp(wallMs: int, offsetMs: int)

  /** `(candle_start_ms, candle_start_local)` for one timestamp. */
  datatype BucketStart = BucketStart(startMs: int, local: LocalStamp)

  /**
   * `candle_start_ms_utc`: convert to local time, floor to five minutes,
   * convert back to UTC with the offset the zone gives that local time.
   */
  function CandleStart(tsMs: int, z: Zone): (b: BucketStart)
    ensures b.local.wallMs % BucketMs == 0
    ensures b.startMs == b.local.wallMs - b.local.offsetMs
    ensures b.local.offsetMs == z.offsetForLocal(b.local.wallMs, z.offsetAt(tsMs))
    ensures b.local.wallMs <= tsMs + z.offsetAt(tsMs) < b.local.wallMs + BucketMs
  {
    var off := z.offsetAt(tsMs);
    var wall := FloorToFiveMinutes(tsMs + off);
    FloorIsAlignment(tsMs + off);
    var off2 := z.offsetForLocal(wall, off);
    BucketStart(wall - off2, LocalStamp(wall, off2))
  }

  /** Under a fixed offset a timestamp lies in the five minutes its bucket starts. */
  lemma BucketContains(tsMs: int, z: Zone, c: int)
    requires FixedOffset(z, c)
    ensures CandleStart(tsMs, z).startMs <= tsMs < CandleStart(tsMs, z).startMs + BucketMs
  {
    FloorIsAlignment(tsMs + c);
  }

  /** Under a fixed offset every timestamp of a bucket's window maps to that bucket. */
  lemma BucketWindow(tsMs: int, other: int, z: Zone, c: int)
    requires FixedOffset(z, c)
    requires CandleStart(tsMs, z).startMs <= other < CandleStart(tsMs, z).startMs + BucketMs
    ensures CandleStart(other, z) == CandleStart(tsMs, z)
  {
    var w := FloorToFiveMinutes(tsMs + c);
    FloorIsAlignment(tsMs + c);
    FloorIsAlignment(other + c);
    var q := w / BucketMs;
    assert w == q * BucketMs;
    DivModUnique(other + c, BucketMs, q, other + c - w);
  }

  /** Bucketing a bucket start gives the same bucket: the operation is idempotent. */
  lemma BucketIdempotent(tsMs: int, z: Zone, c: int)
    requires FixedOffset(z, c)
    ensures CandleStart(CandleStart(tsMs, z).startMs, z) == CandleStart(tsMs, z)
  {
    BucketContains(tsMs, z, c);
    BucketWindow(tsMs, CandleStart(tsMs, z).startMs, z, c);
  }

  /** Under a fixed offset later timestamps never fall in earlier buckets. */
  lemma BucketMonotone(t1: int, t2: int, z: Zone, c: int)
    requires FixedOffset(z, c)
    requires t1 <= t2
    ensures CandleStart(t1, z).startMs <= CandleStart(t2, z).startMs
  {
    FloorIsAlignment(t1 + c);
    FloorIsAlignment(t2 + c);
    DivMonotone(t1 + c, t2 + c, BucketMs);
    var q1, q2 := (t1 + c) / BucketMs, (t2 + c) / BucketMs;
    assert FloorToFiveMinutes(t1 + c) == q1 * BucketMs;
    assert FloorToFiveMinutes(t2 + c) == q2 * BucketMs;
    assert (q2 - q1) * BucketMs >= 0;
  }

  /** With an offset of whole five-minute steps, bucket starts are aligned in UTC too. */
  lemma BucketAlignedInUtc(tsMs: int, z: Zone, c: int)
    requires FixedOffset(z, c)
    requires c % BucketMs == 0
    ensures CandleStart(tsMs, z).startMs % BucketMs == 0
  {
    var b := CandleStart(tsMs, z);
    var q1 := b.local.wallMs / BucketMs;
    var q2 := c / BucketMs;
    assert b.startMs == (q1 - q2) * BucketMs;
    DivModUnique(b.startMs, BucketMs, q1 - q2, 0);
  }

  /**
   * New York in January is five hours behind UTC. 09:59:59 and 10:00:01
   * local time on 2024-01-01 fall in different buckets whose local starts,
   * 09:55 and 10:00, are five minutes apart.
   */
  lemma NewYorkExample()
    ensures var z := FixedZone(-5 * HourMs);
      var a := CandleStart(1704121199000, z);
      var b := CandleStart(1704121201000, z);
      && a.startMs != b.startMs
      && b.local.wallMs - a.local.wallMs == BucketMs
      && a.local.offsetMs == b.local.offsetMs == -18000000
  {
    var z := FixedZone(-5 * HourMs);
    FloorIsAlignment(1704121199000 - 18000000);
    FloorIsAlignment(1704121201000 - 18000000);
  }
}

=== FILE: candle_props.dfy ===
/** Properties of the candle sequence `build_5m_candles` emits. */
module CandleProperties {
  import opened Base
  import opened Bucketing
  import opened Ticks
  import opened Candles

  /** Runs are non-empty, share one bucket inside, and differ in bucket from their neighbour. */
  ghost predicate ProperRuns(runs: seq<seq<PriceTick>>, z: Zone) {
    && AllNonEmpty(runs)
    && (forall i, j :: 0 <= i < |runs| && 0 <= j < |runs[i]| ==> Key(runs[i][j], z) == Key(runs[i][0], z))
    && (forall i :: 0 <= i < |runs| - 1 ==> Key(runs[i][0], z) != Key(runs[i + 1][0], z))
  }

  ghost predicate UniformRun(p: seq<PriceTick>, z: Zone) {
    |p| > 0 && forall j :: 0 <= j < |p| ==> Key(p[j], z) == Key(p[0], z)
  }

  lemma {:induction false} RunsFromShape(p: seq<PriceTick>, ts: seq<PriceTick>, z: Zone)
    requires UniformRun(p, z)
    ensures ProperRuns(RunsFrom(p, ts, z), z)
    ensures Flatten(RunsFrom(p, ts, z)) == p + ts
    ensures |RunsFrom(p, ts, z)| > 0 && |RunsFrom(p, ts, z)[0]| >= |p|
    ensures RunsFrom(p, ts, z)[0][0] == p[0]
    decreases |ts|
  {
    var runs := RunsFrom(p, ts, z);
    if |ts| == 0 {
      assert runs == [p];
      assert Flatten(runs) == p + Flatten(runs[1..]);
      assert p + ts == p;
    } else if Key(ts[0], z) == Key(p[0], z) {
      var p' := p + [ts[0]];
      assert p'[0] == p[0];
      RunsFromShape(p', ts[1..], z);
      assert p' + ts[1..] == p + ts;
    } else {
      var rest := RunsFrom([ts[0]], ts[1..], z);
      RunsFromShape([ts[0]], ts[1..], z);
      assert runs == [p] + rest;
      assert runs[1..] == rest;
      assert Flatten(runs) == p + Flatten(rest);
      assert [ts[0]] + ts[1..] == ts;
      ProperCons(p, rest, z);
    }
  }

  /** A uniform run in front of proper runs starting in another bucket keeps them proper. */
  lemma ProperCons(p: seq<PriceTick>, rest: seq<seq<PriceTick>>, z: Zone)
    requires UniformRun(p, z) && ProperRuns(rest, z)
    requires |rest| > 0 && Key(rest[0][0], z) != Key(p[0], z)
    ensures ProperRuns([p] + rest, z)
  {
    var runs := [p] + rest;
    forall i | 0 <= i < |runs| - 1
      ensures Key(runs[i][0], z) != Key(runs[i + 1][0], z)
    {
      if i > 0 {
        assert runs[i] == rest[i - 1] && runs[i + 1] == rest[i];
      }
    }
    forall i, j | 0 <= i < |runs| && 0 <= j < |runs[i]|
      ensures Key(runs[i][j], z) == Key(runs[i][0], z)
    {
      if i > 0 {
        assert runs[i] == rest[i - 1];
      }
    }
  }

  /** Runs partition the ticks: concatenated they give the ticks back, and there are none for no ticks. */
  lemma RunsShape(ts: seq<PriceTick>, z: Zone)
    ensures ProperRuns(Runs(ts, z), z)
    ensures Flatten(Runs(ts, z)) == ts
    ensures Runs(ts, z) == [] <==> ts == []
  {
    if |ts| > 0 {
      RunsFromShape([ts[0]], ts[1..], z);
      assert [ts[0]] + ts[1..] == ts;
    }
  }

  /** Total number of ticks over a candle sequence. */
  function TickTotal(cs: seq<Candle>): nat {
    if |cs| == 0 then 0 else cs[0].ticks + TickTotal(cs[1..])
  }

  lemma {:induction false} RunCandlesTotal(runs: seq<seq<PriceTick>>, z: Zone, symbol: string)
    requires AllNonEmpty(runs)
    ensures TickTotal(RunCandles(runs, z, symbol)) == |Flatten(runs)|
  {
    if |runs| > 0 {
      RunCandlesTotal(runs[1..], z, symbol);
      assert RunCandles(runs, z, symbol)[1..] == RunCandles(runs[1..], z, symbol);
    }
  }

  /** The candles' tick counts add up to the number of accepted ticks. */
  lemma BuildTickTotal(ticks: seq<PriceTick>, z: Zone, symbol: string)
    ensures TickTotal(Build5m(ticks, z, symbol)) == |Accepted(ticks, symbol)|
  {
    BuildIsRunCandles(ticks, z, symbol);
    RunsShape(Accepted(ticks, symbol), z);
    RunCandlesTotal(Runs(Accepted(ticks, symbol), z), z, symbol);
  }

  /** No candle is emitted exactly when no tick is accepted. */
  lemma BuildEmptyIff(ticks: seq<PriceTick>, z: Zone, symbol: string)
    ensures Build5m(ticks, z, symbol) == [] <==> Accepted(ticks, symbol) == []
  {
    BuildIsRunCandles(ticks, z, symbol);
    RunsShape(Accepted(ticks, symbol), z);
  }

  /**
   * Every candle carries the configured symbol, at least one tick, and
   * OHLC values with low <= open, close <= high.
   */
  lemma BuildCandleContents(ticks: seq<PriceTick>, z: Zone, symbol: string)
    ensures forall c :: c in Build5m(ticks, z, symbol) ==>
      && c.symbol == symbol
      && c.ticks >= 1
      && c.low <= c.open <= c.high
      && c.low <= c.close <= c.high
  {
    BuildIsRunCandles(ticks, z, symbol);
  }

  /** Neighbouring candles belong to different buckets. */
  lemma BuildAdjacentStartsDiffer(ticks: seq<PriceTick>, z: Zone, symbol: string)
    ensures forall i :: 0 <= i < |Build5m(ticks, z, symbol)| - 1 ==>
      Build5m(ticks, z, symbol)[i].startMs != Build5m(ticks, z, symbol)[i + 1].startMs
  {
    BuildIsRunCandles(ticks, z, symbol);
    RunsShape(Accepted(ticks, symbol), z);
  }

  ghost predicate SortedTicks(ts: seq<PriceTick>) {
    forall i, j :: 0 <= i < j < |ts| ==> ts[i].tsMs <= ts[j].tsMs
  }

  lemma {:induction false} AcceptedSorted(ts: seq<PriceTick>, symbol: string)
    requires SortedTicks(ts)
    ensures SortedTicks(Accepted(ts, symbol))
    ensures forall t :: t in Accepted(ts, symbol) ==> t in ts
  {
    if |ts| > 0 {
      AcceptedSorted(ts[1..], symbol);
      var rest := Accepted(ts[1..], symbol);
      assert forall t :: t in rest ==> ts[0].tsMs <= t.tsMs;
    }
  }

  ghost predicate IncreasingStarts(runs: seq<seq<PriceTick>>, z: Zone)
    requires AllNonEmpty(runs)
  {
    forall i, j :: 0 <= i < j < |runs| ==> Key(runs[i][0], z) < Key(runs[j][0], z)
  }

  ghost predicate OrderedRuns(runs: seq<seq<PriceTick>>)
    requires AllNonEmpty(runs)
  {
    forall i :: 0 <= i < |runs| ==> runs[i][0].tsMs <= Last(runs[i]).tsMs
  }

  lemma ConsRun(p: seq<PriceTick>, rest: seq<seq<PriceTick>>, z: Zone)
    requires |p| > 0 && p[0].tsMs <= Last(p).tsMs
    requires AllNonEmpty(rest) && |rest| > 0
    requires IncreasingStarts(rest, z) && OrderedRuns(rest)
    requires Key(p[0], z) < Key(rest[0][0], z)
    ensures AllNonEmpty([p] + rest)
    ensures IncreasingStarts([p] + rest, z) && OrderedRuns([p] + rest)
  {
    var runs := [p] + rest;
    forall i, j | 0 <= i < j < |runs|
      ensures Key(runs[i][0], z) < Key(runs[j][0], z)
    {
      assert runs[j] == rest[j - 1];
      if i > 0 {
        assert runs[i] == rest[i - 1];
      } else if j > 1 {
        assert Key(rest[0][0], z) < Key(rest[j - 1][0], z);
      }
    }
    forall i | 0 <= i < |runs|
      ensures runs[i][0].tsMs <= Last(runs[i]).tsMs
    {
      if i > 0 {
        assert runs[i] == rest[i - 1];
      }
    }
  }

  /** Runs of sorted ticks: bucket starts strictly increase and each run is time-ordered. */
  lemma {:induction false} RunsFromSorted(p: seq<PriceTick>, ts: seq<PriceTick>, z: Zone, c: int)
    requires FixedOffset(z, c)
    requires |p| > 0 && SortedTicks(p + ts)
    ensures AllNonEmpty(RunsFrom(p, ts, z)) && |RunsFrom(p, ts, z)| > 0
    ensures IncreasingStarts(RunsFrom(p, ts, z), z)
    ensures OrderedRuns(RunsFrom(p, ts, z))
    ensures RunsFrom(p, ts, z)[0][0] == p[0]
    decreases |ts|
  {
    RunsFromNonEmpty(p, ts, z);
    var runs := RunsFrom(p, ts, z);
    var all := p + ts;
    if |ts| == 0 {
      assert runs == [p];
      assert all == p;
    } else if Key(ts[0], z) == Key(p[0], z) {
      var p' := p + [ts[0]];
      assert p' + ts[1..] == all;
      RunsFromSorted(p', ts[1..], z, c);
    } else {
      var t := ts[0];
      var rest := RunsFrom([t], ts[1..], z);
      assert [t] + ts[1..] == all[|p|..];
      assert SortedTicks([t] + ts[1..]);
      RunsFromSorted([t], ts[1..], z, c);
      assert all[0] == p[0] && all[|p|] == t && all[|p| - 1] == Last(p);
      BucketMonotone(p[0].tsMs, t.tsMs, z, c);
      ConsRun(p, rest, z);
      assert runs == [p] + rest;
    }
  }

  /**
   * On time-sorted ticks under a fixed offset, candle starts strictly
   * increase and every candle has first_ts_ms <= last_ts_ms.
   */
  lemma BuildSorted(ticks: seq<PriceTick>, z: Zone, c: int, symbol: string)
    requires FixedOffset(z, c)
    requires SortedTicks(ticks)
    ensures forall i, j :: 0 <= i < j < |Build5m(ticks, z, symbol)| ==>
      Build5m(ticks, z, symbol)[i].startMs < Build5m(ticks, z, symbol)[j].startMs
    ensures forall cd :: cd in Build5m(ticks, z, symbol) ==> cd.firstTsMs <= cd.lastTsMs
  {
    var acc := Accepted(ticks, symbol);
    AcceptedSorted(ticks, symbol);
    BuildIsRunCandles(ticks, z, symbol);
    if |acc| > 0 {
      assert [acc[0]] + acc[1..] == acc;
      RunsFromSorted([acc[0]], acc[1..], z, c);
      var cs := Build5m(ticks, z, symbol);
      var runs := Runs(acc, z);
      assert forall i :: 0 <= i < |cs| ==> cs[i].startMs == Key(runs[i][0], z);
    }
  }

  /**
   * Three ticks at 10:00:01, 10:00:02 and 10:00:03 New York time with mids
   * 50000, 50010 and 49990 make one candle: open 50000, high 50010,
   * low 49990, close 49990, three ticks.
   */
  lemma ThreeTickExample()
    ensures var z := FixedZone(-5 * HourMs);
      var ts := [PriceTick(1704121201000, 50000.0, "binance", "BTCUSDT"),
                 PriceTick(1704121202000, 50010.0, "binance", "BTCUSDT"),
                 PriceTick(1704121203000, 49990.0, "binance", "BTCUSDT")];
      Build5m(ts, z, "BTCUSDT") == [Candle(1704121200000, LocalStamp(1704103200000, -18000000), "BTCUSDT",
                                          50000.0, 50010.0, 49990.0, 49990.0, 3, 1704121201000, 1704121203000)]
  {
    var z := FixedZone(-5 * HourMs);
    var t1 := PriceTick(1704121201000, 50000.0, "binance", "BTCUSDT");
    var t2 := PriceTick(1704121202000, 50010.0, "binance", "BTCUSDT");
    var t3 := PriceTick(1704121203000, 49990.0, "binance", "BTCUSDT");
    FloorIsAlignment(1704121201000 - 18000000);
    assert Key(t1, z) == 1704121200000;
    BucketWindow(t1.tsMs, t2.tsMs, z, -5 * HourMs);
    BucketWindow(t1.tsMs, t3.tsMs, z, -5 * HourMs);
    var ts := [t1, t2, t3];
    assert ts[1..] == [t2, t3] && ts[1..][1..] == [t3] && ts[1..][1..][1..] == [];
    var c1 := Seed(t1, z, "BTCUSDT");
    var c2 := Absorb(c1, t2);
    assert BuildFrom(None, ts, z, "BTCUSDT") == BuildFrom(Some(c1), [t2, t3], z, "BTCUSDT");
    assert BuildFrom(Some(c1), [t2, t3], z, "BTCUSDT") == BuildFrom(Some(c2), [t3], z, "BTCUSDT");
    assert BuildFrom(Some(c2), [t3], z, "BTCUSDT") == [Absorb(c2, t3)];
  }
}

=== FILE: candles.dfy ===
/**
 * Five-minute OHLC candles from a tick stream (`build_5m_candles` in
 * `kalshi_bot/io/candles.py`), and a reference description of what each
 * candle summarises.
 */
module Candles {
  import opened Base
  import opened Bucketing
  import opened Ticks

  /** One bar: its bucket, the configured symbol, OHLC of the mids and tick metadata. */
  datatype Candle = Candle(
    startMs: int,
    startLocal: LocalStamp,
    symbol: string,
    open: real,
    high: real,
    low: real,
    close: real,
    ticks: nat,
    firstTsMs: int,
    lastTsMs: int)

  /** A tick counts unless it names a symbol other than the configured one (empty matches any). */
  predicate Accepts(symbol: string, t: PriceTick) {
    t.symbol == "" || t.symbol == symbol
  }

  /** The `if t.symbol and t.symbol != symbol: continue` filter, order kept. */
  function Accepted(ticks: seq<PriceTick>, symbol: string): (r: seq<PriceTick>)
    ensures |r| <= |ticks|
    ensures forall i :: 0 <= i < |r| ==> Accepts(symbol, r[i])
  {
    if |ticks| == 0 then []
    else (if Accepts(symbol, ticks[0]) then [ticks[0]] else []) + Accepted(ticks[1..], symbol)
  }

  /**
   * Conversely, every tick that passes the filter is kept, and nothing is
   * dropped when every tick passes.
   */
  lemma {:induction false} AcceptedExactly(ticks: seq<PriceTick>, symbol: string)
    ensures forall t :: t in Accepted(ticks, symbol) <==> t in ticks && Accepts(symbol, t)
    ensures |Accepted(ticks, symbol)| == |ticks| <==> forall i :: 0 <= i < |ticks| ==> Accepts(symbol, ticks[i])
  {
    if |ticks| > 0 {
      AcceptedExactly(ticks[1..], symbol);
      assert forall i :: 0 < i < |ticks| ==> ticks[i] == ticks[1..][i - 1];
      assert ticks == [ticks[0]] + ticks[1..];
    }
  }

  /** Filtering consecutive blocks filters each block, order kept. */
  lemma {:induction false} AcceptedAppend(a: seq<PriceTick>, b: seq<PriceTick>, symbol: string)
    ensures Accepted(a + b, symbol) == Accepted(a, symbol) + Accepted(b, symbol)
  {
    if |a| > 0 {
      AcceptedAppend(a[1..], b, symbol);
      assert (a + b)[1..] == a[1..] + b;
      assert (a + b)[0] == a[0];
    } else {
      assert a + b == b;
    }
  }

  /** The bucket start a tick maps to. */
  function Key(t: PriceTick, z: Zone): int {
    CandleStart(t.tsMs, z).startMs
  }

  /** A new candle opened by its first tick. */
  function Seed(t: PriceTick, z: Zone, symbol: string): Candle {
    var b := CandleStart(t.tsMs, z);
    Candle(b.startMs, b.local, symbol, t.mid, t.mid, t.mid, t.mid, 1, t.tsMs, t.tsMs)
  }

  /** A further tick of the open candle's bucket. */
  function Absorb(c: Candle, t: PriceTick): Candle {
    c.(high := if c.high >= t.mid then c.high else t.mid,
       low := if c.low <= t.mid then c.low else t.mid,
       close := t.mid,
       ticks := c.ticks + 1,
       lastTsMs := t.tsMs)
  }

  /**
   * The generator body: `current` is the open candle; a tick of another
   * bucket emits it and opens a new one; the end of input flushes it.
   */
  function BuildFrom(current: Option<Candle>, ticks: seq<PriceTick>, z: Zone, symbol: string): (r: seq<Candle>)
    ensures |r| <= |ticks| + (if current.Some? then 1 else 0)
    ensures current.Some? ==> |r| > 0 && r[0].startMs == current.value.startMs
    decreases |ticks|
  {
    if |ticks| == 0 then
      (if current.Some? then [current.value] else [])
    else
      var t := ticks[0];
      if !Accepts(symbol, t) then BuildFrom(current, ticks[1..], z, symbol)
      else if current.None? || Key(t, z) != current.value.startMs then
        (if current.Some? then [current.value] else []) + BuildFrom(Some(Seed(t, z, symbol)), ticks[1..], z, symbol)
      else
        BuildFrom(Some(Absorb(current.value, t)), ticks[1..], z, symbol)
  }

  /** `build_5m_candles(ticks, tz, symbol)`, collected into a list. */
  function Build5m(ticks: seq<PriceTick>, z: Zone, symbol: string): (cs: seq<Candle>)
    ensures |cs| <= |ticks|
  {
    BuildFrom(None, ticks, z, symbol)
  }

  /**
   * Output appears once a candle is open or some tick passes the filter,
   * and every candle carries the configured symbol.
   */
  lemma {:induction false} BuildFromShape(current: Option<Candle>, ticks: seq<PriceTick>, z: Zone, symbol: string)
    ensures var r := BuildFrom(current, ticks, z, symbol);
      && (|r| > 0 <==> current.Some? || exists i :: 0 <= i < |ticks| && Accepts(symbol, ticks[i]))
      && ((current.Some? ==> current.value.symbol == symbol) ==>
            forall i :: 0 <= i < |r| ==> r[i].symbol == symbol)
    decreases |ticks|
  {
    if |ticks| > 0 {
      var t := ticks[0];
      assert forall i :: 0 < i < |ticks| ==> ticks[i] == ticks[1..][i - 1];
      assert forall i :: 0 <= i < |ticks[1..]| ==> ticks[1..][i] == ticks[i + 1];
      if !Accepts(symbol, t) {
        BuildFromShape(current, ticks[1..], z, symbol);
      } else if current.None? || Key(t, z) != current.value.startMs {
        BuildFromShape(Some(Seed(t, z, symbol)), ticks[1..], z, symbol);
      } else {
        BuildFromShape(Some(Absorb(current.value, t)), ticks[1..], z, symbol);
      }
    }
  }

  /** `build_5m_candles` yields nothing exactly when no tick passes the filter; all candles carry the symbol. */
  lemma Build5mShape(ticks: seq<PriceTick>, z: Zone, symbol: string)
    ensures Build5m(ticks, z, symbol) == [] <==> forall i :: 0 <= i < |ticks| ==> !Accepts(symbol, ticks[i])
    ensures forall i :: 0 <= i < |Build5m(ticks, z, symbol)| ==> Build5m(ticks, z, symbol)[i].symbol == symbol
  {
    BuildFromShape(None, ticks, z, symbol);
  }

  // ---------------------------------------------------------------------
  // Reference description: group the accepted ticks into maximal runs of
  // consecutive ticks with the same bucket, and summarise each run.
  // ---------------------------------------------------------------------

  /** Split `p + ts` into runs, `p` being a run still open. */
  function RunsFrom(p: seq<PriceTick>, ts: seq<PriceTick>, z: Zone): seq<seq<PriceTick>>
    requires |p| > 0
    decreases |ts|
  {
    if |ts| == 0 then [p]
    else if Key(ts[0], z) == Key(p[0], z) then RunsFrom(p + [ts[0]], ts[1..], z)
    else [p] + RunsFrom([ts[0]], ts[1..], z)
  }

  function Runs(ts: seq<PriceTick>, z: Zone): seq<seq<PriceTick>> {
    if |ts| == 0 then [] else RunsFrom([ts[0]], ts[1..], z)
  }

  function MaxMid(run: seq<PriceTick>): (m: real)
    requires |run| > 0
    ensures forall i :: 0 <= i < |run| ==> run[i].mid <= m
    ensures exists i :: 0 <= i < |run| && run[i].mid == m
  {
    if |run| == 1 then run[0].mid
    else
      var m := MaxMid(run[..|run| - 1]);
      assert forall i :: 0 <= i < |run| - 1 ==> run[..|run| - 1][i] == run[i];
      if m >= Last(run).mid then m else Last(run).mid
  }

  function MinMid(run: seq<PriceTick>): (m: real)
    requires |run| > 0
    ensures forall i :: 0 <= i < |run| ==> m <= run[i].mid
    ensures exists i :: 0 <= i < |run| && run[i].mid == m
  {
    if |run| == 1 then run[0].mid
    else
      var m := MinMid(run[..|run| - 1]);
      assert forall i :: 0 <= i < |run| - 1 ==> run[..|run| - 1][i] == run[i];
      if m <= Last(run).mid then m else Last(run).mid
  }

  /**
   * The candle a run summarises: the first tick's bucket, open and first
   * timestamp; the last tick's close and last timestamp; the extreme mids;
   * the number of ticks.
   */
  function RunCandle(run: seq<PriceTick>, z: Zone, symbol: string): Candle
    requires |run| > 0
  {
    var b := CandleStart(run[0].tsMs, z);
    Candle(b.startMs, b.local, symbol, run[0].mid, MaxMid(run), MinMid(run), Last(run).mid,
           |run|, run[0].tsMs, Last(run).tsMs)
  }

  ghost predicate AllNonEmpty(runs: seq<seq<PriceTick>>) {
    forall i :: 0 <= i < |runs| ==> |runs[i]| > 0
  }

  function RunCandles(runs: seq<seq<PriceTick>>, z: Zone, symbol: string): (cs: seq<Candle>)
    requires AllNonEmpty(runs)
    ensures |cs| == |runs|
    ensures forall i :: 0 <= i < |runs| ==> cs[i] == RunCandle(runs[i], z, symbol)
  {
    if |runs| == 0 then [] else [RunCandle(runs[0], z, symbol)] + RunCandles(runs[1..], z, symbol)
  }

  lemma SeedIsRunCandle(t: PriceTick, z: Zone, symbol: string)
    ensures Seed(t, z, symbol) == RunCandle([t], z, symbol)
  {
  }

  /** Absorbing a tick into a run's candle gives the candle of the extended run. */
  lemma AbsorbExtendsRun(run: seq<PriceTick>, t: PriceTick, z: Zone, symbol: string)
    requires |run| > 0
    ensures Absorb(RunCandle(run, z, symbol), t) == RunCandle(run + [t], z, symbol)
  {
    var run' := run + [t];
    assert run'[..|run'| - 1] == run;
    assert run'[0] == run[0];
  }

  lemma {:induction false} RunsFromNonEmpty(p: seq<PriceTick>, ts: seq<PriceTick>, z: Zone)
    requires |p| > 0
    ensures AllNonEmpty(RunsFrom(p, ts, z))
    decreases |ts|
  {
    if |ts| > 0 {
      if Key(ts[0], z) == Key(p[0], z) {
        RunsFromNonEmpty(p + [ts[0]], ts[1..], z);
      } else {
        RunsFromNonEmpty([ts[0]], ts[1..], z);
      }
    }
  }

  lemma RunsNonEmpty(ts: seq<PriceTick>, z: Zone)
    ensures AllNonEmpty(Runs(ts, z))
  {
    if |ts| > 0 {
      RunsFromNonEmpty([ts[0]], ts[1..], z);
    }
  }

  /**
   * The batch builder emits exactly one candle per run of the accepted
   * ticks, and that candle is the run's summary.
   */
  lemma {:induction false} BuildFromRuns(p: seq<PriceTick>, ts: seq<PriceTick>, z: Zone, symbol: string)
    requires |p| > 0
    ensures AllNonEmpty(RunsFrom(p, Accepted(ts, symbol), z))
    ensures BuildFrom(Some(RunCandle(p, z, symbol)), ts, z, symbol)
         == RunCandles(RunsFrom(p, Accepted(ts, symbol), z), z, symbol)
    decreases |ts|
  {
    RunsFromNonEmpty(p, Accepted(ts, symbol), z);
    if |ts| > 0 {
      var t := ts[0];
      var acc := Accepted(ts, symbol);
      if !Accepts(symbol, t) {
        assert acc == Accepted(ts[1..], symbol);
        BuildFromRuns(p, ts[1..], z, symbol);
      } else {
        assert acc == [t] + Accepted(ts[1..], symbol);
        assert acc[0] == t && acc[1..] == Accepted(ts[1..], symbol);
        if Key(t, z) == Key(p[0], z) {
          AbsorbExtendsRun(p, t, z, symbol);
          BuildFromRuns(p + [t], ts[1..], z, symbol);
          assert (p + [t])[0] == p[0];
        } else {
          SeedIsRunCandle(t, z, symbol);
          BuildFromRuns([t], ts[1..], z, symbol);
          var rest := RunsFrom([t], Accepted(ts[1..], symbol), z);
          assert RunsFrom(p, acc, z) == [p] + rest;
          assert RunCandles([p] + rest, z, symbol)[1..] == RunCandles(rest, z, symbol);
        }
      }
    }
  }

  /** `build_5m_candles` emits the summaries of the runs of accepted ticks, in order. */
  lemma BuildIsRunCandles(ticks: seq<PriceTick>, z: Zone, symbol: string)
    ensures AllNonEmpty(Runs(Accepted(ticks, symbol), z))
    ensures Build5m(ticks, z, symbol) == RunCandles(Runs(Accepted(ticks, symbol), z), z, symbol)
    decreases |ticks|
  {
    RunsNonEmpty(Accepted(ticks, symbol), z);
    if |ticks| > 0 {
      var t := ticks[0];
      if !Accepts(symbol, t) {
        assert Accepted(ticks, symbol) == Accepted(ticks[1..], symbol);
        BuildIsRunCandles(ticks[1..], z, symbol);
      } else {
        var acc := Accepted(ticks, symbol);
        assert acc == [t] + Accepted(ticks[1..], symbol);
        assert acc[0] == t && acc[1..] == Accepted(ticks[1..], symbol);
        SeedIsRunCandle(t, z, symbol);
        BuildFromRuns([t], ticks[1..], z, symbol);
      }
    }
  }
}

=== FILE: decimal.dfy ===
/**
 * Decimal text of integers, as Python's `str(int)` writes it and `int(str)` /
 * `float(str)` read it back. Order ids ("paper:7") and strategy keys
 * ("intent:1700000000000:0") are built from this text, so their uniqueness
 * rests on the round trip proved here.
 */
module Decimal {
  import opened Base

  predicate IsDigit(c: char) {
    '0' <= c <= '9'
  }

  predicate AllDigits(s: string) {
    forall i :: 0 <= i < |s| ==> IsDigit(s[i])
  }

  function DigitChar(d: nat): (c: char)
    requires d < 10
    ensures IsDigit(c)
  {
    ('0' as int + d) as char
  }

  function DigitValue(c: char): (d: nat)
    requires IsDigit(c)
    ensures d < 10
  {
    c as int - '0' as int
  }

  /** `str(n)` for a non-negative integer: no sign, no leading zeros. */
  function NatToString(n: nat): (s: string)
    ensures |s| > 0 && AllDigits(s)
    ensures |s| > 1 ==> s[0] != '0'
  {
    if n < 10 then [DigitChar(n)] else NatToString(n / 10) + [DigitChar(n % 10)]
  }

  /** The value of a string of decimal digits (leading zeros allowed). */
  function DigitsValue(s: string): nat
    requires AllDigits(s)
  {
    if |s| == 0 then 0 else DigitsValue(s[..|s| - 1]) * 10 + DigitValue(s[|s| - 1])
  }

  lemma {:induction false} NatToStringRoundTrip(n: nat)
    ensures DigitsValue(NatToString(n)) == n
  {
    if n >= 10 {
      var s := NatToString(n);
      assert s[..|s| - 1] == NatToString(n / 10);
      NatToStringRoundTrip(n / 10);
    }
  }

  /** Distinct numbers have distinct decimal text. */
  lemma NatToStringInjective(a: nat, b: nat)
    ensures NatToString(a) == NatToString(b) <==> a == b
  {
    if NatToString(a) == NatToString(b) {
      NatToStringRoundTrip(a);
      NatToStringRoundTrip(b);
    }
  }

  /** `str(i)` for any integer: a leading '-' for negatives. */
  function IntToString(i: int): (s: string)
    ensures |s| > 0
    ensures i >= 0 <==> s[0] != '-'
  {
    if i < 0 then "-" + NatToString(-i) else NatToString(i)
  }

  predicate IsSign(c: char) {
    c == '-' || c == '+'
  }

  /** The text `int()` accepts here: an optional sign, then one or more digits. */
  predicate IntText(s: string) {
    |s| > 0 && (AllDigits(s) || (IsSign(s[0]) && |s| > 1 && AllDigits(s[1..])))
  }

  /**
   * `int(s)` on a string: an optional sign followed by one or more digits.
   * Anything else is a ValueError in Python, `None` here.
   */
  function ParseInt(s: string): (r: Option<int>)
    ensures r.Some? <==> IntText(s)
    ensures AllDigits(s) && |s| > 0 ==> r == Some(DigitsValue(s))
    ensures |s| > 1 && s[0] == '-' && AllDigits(s[1..]) ==> r == Some(0 - DigitsValue(s[1..]))
    ensures |s| > 1 && s[0] == '+' && AllDigits(s[1..]) ==> r == Some(DigitsValue(s[1..]))
  {
    if |s| > 0 && IsSign(s[0]) then
      var body := s[1..];
      assert !IsDigit(s[0]);
      if |body| > 0 && AllDigits(body) then
        var v: int := DigitsValue(body);
        Some(if s[0] == '-' then -v else v)
      else None
    else if |s| > 0 && AllDigits(s) then Some(DigitsValue(s))
    else None
  }

  lemma IntToStringRoundTrip(i: int)
    ensures ParseInt(IntToString(i)) == Some(i)
  {
    if i < 0 {
      var s := IntToString(i);
      assert s[1..] == NatToString(-i);
      NatToStringRoundTrip(-i);
    } else {
      NatToStringRoundTrip(i);
    }
  }

  function Pow10(n: nat): (p: nat)
    ensures p >= 1
  {
    if n == 0 then 1 else 10 * Pow10(n - 1)
  }

  /** Position of the first '.' in `s`, or `|s|` when there is none. */
  function DotIndex(s: string): (k: nat)
    ensures k <= |s|
    ensures k < |s| ==> s[k] == '.'
    ensures forall i :: 0 <= i < k ==> s[i] != '.'
  {
    if |s| == 0 then 0
    else if s[0] == '.' then 0
    else 1 + DotIndex(s[1..])
  }

  /** An unsigned decimal: digits, optionally a '.' and more digits, at least one digit. */
  function ParseUnsignedDecimal(s: string): (r: Option<real>)
    ensures r.Some? ==> r.value >= 0.0 && |s| > 0
    ensures AllDigits(s) && |s| > 0 ==> r == Some(DigitsValue(s) as real)
  {
    var k := DotIndex(s);
    var whole := s[..k];
    var frac := if k < |s| then s[k + 1..] else "";
    assert AllDigits(s) ==> k == |s| && whole == s && frac == "";
    if AllDigits(whole) && AllDigits(frac) && |whole| + |frac| > 0 then
      Some(DigitsValue(whole) as real + DigitsValue(frac) as real / Pow10(|frac|) as real)
    else None
  }

  /**
   * `float(s)` on a string, restricted to plain decimals with an optional
   * sign ("50000", "-1.25", ".5", "5."). Integer text reads as the same
   * number `int()` gives.
   */
  function ParseFloat(s: string): (r: Option<real>)
    ensures r.Some? ==> |s| > 0
    ensures ParseInt(s).Some? ==> r == Some(ParseInt(s).value as real)
    ensures |s| > 0 && s[0] == '-' && r.Some? ==> r.value <= 0.0
    ensures |s| > 0 && s[0] == '+' ==> r == ParseUnsignedDecimal(s[1..])
  {
    if |s| > 0 && IsSign(s[0]) then
      match ParseUnsignedDecimal(s[1..])
      case Some(v) => Some(if s[0] == '-' then -v else v)
      case None => None
    else
      ParseUnsignedDecimal(s)
  }

  lemma ReadsOneAndHalf()
    ensures ParseFloat("1.5") == Some(1.5)
  {
    assert DotIndex("1.5") == 1 && "1.5"[..1] == "1" && "1.5"[2..] == "5";
  }

  lemma ReadsMinusHalf()
    ensures ParseFloat("-.5") == Some(-0.5)
  {
    assert "-.5"[0] == '-' && "-.5"[1..] == ".5";
    assert DotIndex(".5") == 0 && ".5"[..0] == "" && ".5"[1..] == "5";
  }

  lemma ReadsFiveDot()
    ensures ParseFloat("5.") == Some(5.0)
  {
    assert DotIndex("5.") == 1 && "5."[..1] == "5" && "5."[2..] == "";
  }

  lemma RefusesDot()
    ensures ParseFloat(".").None?
  {
    assert DotIndex(".") == 0 && "."[..0] == "" && "."[1..] == "";
  }

  lemma RefusesTwoDots()
    ensures ParseFloat("1.2.3").None?
  {
    assert DotIndex("1.2.3") == 1 && "1.2.3"[2..] == "2.3";
    assert !IsDigit("2.3"[1]);
  }

  lemma RefusesWord()
    ensures ParseFloat("n/a").None?
  {
    assert DotIndex("n/a") == 3 && "n/a"[..3] == "n/a";
    assert !IsDigit("n/a"[0]);
  }

  /** Decimal text as `float()` reads it, and text it refuses. */
  lemma ParseFloatExamples()
    ensures ParseFloat("1.5") == Some(1.5)
    ensures ParseFloat("-.5") == Some(-0.5)
    ensures ParseFloat("5.") == Some(5.0)
    ensures ParseFloat(".").None? && ParseFloat("1.2.3").None? && ParseFloat("n/a").None?
  {
    ReadsOneAndHalf();
    ReadsMinusHalf();
    ReadsFiveDot();
    RefusesDot();
    RefusesTwoDots();
    RefusesWord();
  }
}

=== FILE: events.dfy ===
/** The shared event record and its companions (`kalshi_bot/types.py`). */
module Events {
  import opened Base
  import opened Json

  /** The eight event kinds the log carries. */
  datatype EventType =
    | EXTERNAL_PRICE
    | VENUE_BOOK
    | VENUE_TRADE
    | ORDER_SUBMIT
    | ORDER_ACK
    | ORDER_FILL
    | ORDER_CANCEL
    | CONNECTION

  /** The string an event kind is written as in the `type` field. */
  function TypeName(t: EventType): string {
    match t
    case EXTERNAL_PRICE => "EXTERNAL_PRICE"
    case VENUE_BOOK => "VENUE_BOOK"
    case VENUE_TRADE => "VENUE_TRADE"
    case ORDER_SUBMIT => "ORDER_SUBMIT"
    case ORDER_ACK => "ORDER_ACK"
    case ORDER_FILL => "ORDER_FILL"
    case ORDER_CANCEL => "ORDER_CANCEL"
    case CONNECTION => "CONNECTION"
  }

  /** The event kind a `type` string names, if any. */
  function ParseEventType(s: string): Option<EventType> {
    if s == "EXTERNAL_PRICE" then Some(EXTERNAL_PRICE)
    else if s == "VENUE_BOOK" then Some(VENUE_BOOK)
    else if s == "VENUE_TRADE" then Some(VENUE_TRADE)
    else if s == "ORDER_SUBMIT" then Some(ORDER_SUBMIT)
    else if s == "ORDER_ACK" then Some(ORDER_ACK)
    else if s == "ORDER_FILL" then Some(ORDER_FILL)
    else if s == "ORDER_CANCEL" then Some(ORDER_CANCEL)
    else if s == "CONNECTION" then Some(CONNECTION)
    else None
  }

  /** Names and kinds are in one-to-one correspondence. */
  lemma EventTypeNames(t: EventType, s: string)
    ensures ParseEventType(TypeName(t)) == Some(t)
    ensures ParseEventType(s) == Some(t) <==> TypeName(t) == s
  {
  }

  /** Every kind, in declaration order. */
  const AllEventTypes: seq<EventType> :=
    [EXTERNAL_PRICE, VENUE_BOOK, VENUE_TRADE, ORDER_SUBMIT, ORDER_ACK, ORDER_FILL, ORDER_CANCEL, CONNECTION]

  /** There are exactly eight kinds: the list above holds each one exactly once. */
  lemma EightEventTypes()
    ensures |AllEventTypes| == 8
    ensures forall t: EventType :: t in AllEventTypes
    ensures forall i, j :: 0 <= i < j < |AllEventTypes| ==> AllEventTypes[i] != AllEventTypes[j]
  {
    forall t: EventType ensures t in AllEventTypes {
      match t
      case EXTERNAL_PRICE => assert AllEventTypes[0] == t;
      case VENUE_BOOK => assert AllEventTypes[1] == t;
      case VENUE_TRADE => assert AllEventTypes[2] == t;
      case ORDER_SUBMIT => assert AllEventTypes[3] == t;
      case ORDER_ACK => assert AllEventTypes[4] == t;
      case ORDER_FILL => assert AllEventTypes[5] == t;
      case ORDER_CANCEL => assert AllEventTypes[6] == t;
      case CONNECTION => assert AllEventTypes[7] == t;
    }
  }

  /**
   * An immutable event. `kind` and `payload` hold whatever JSON the log
   * line carried: reading the log does not check them against the eight
   * kinds or against "payload is an object".
   */
  datatype Event = Event(tsMs: int, kind: Json, payload: Json) {
    predicate Is(t: EventType) {
      kind == JStr(TypeName(t))
    }
  }

  /** An event built by the program itself, with a known kind. */
  function MakeEvent(tsMs: int, t: EventType, payload: Json): (ev: Event)
    ensures ev.tsMs == tsMs && ev.payload == payload
    ensures forall u: EventType :: ev.Is(u) <==> u == t
  {
    Event(tsMs, JStr(TypeName(t)), payload)
  }

  datatype TopOfBook = TopOfBook(tsMs: int, bid: real, ask: real) {
    /** The midpoint of the quoted prices. */
    function Mid(): (m: real)
      ensures bid <= ask ==> bid <= m <= ask
      ensures m - bid == ask - m
    {
      (bid + ask) / 2.0
    }
  }

  /** A fill record; `fee` is optional and absent unless given. */
  datatype Fill = Fill(tsMs: int, orderId: string, price: real, qty: real, fee: Option<real>)

  function NewFill(tsMs: int, orderId: string, price: real, qty: real): Fill {
    Fill(tsMs, orderId, price, qty, None)
  }
}

=== FILE: json.dfy ===
/**
 * Decoded JSON values and the Python conversions the pipeline applies to
 * them. JSON text itself is not modelled: a line of a JSONL file is either
 * blank (empty after `strip()`), text `json.loads` rejects, or one decoded
 * value.
 */
module Json {
  import opened Base
  import Decimal

  /**
   * A value as `json.loads` returns it: a number written without a
   * fraction or exponent is an `int`, any other number (`1.0`, `2e3`) a float.
   */
  datatype Json =
    | JNull
    | JBool(b: bool)
    | JInt(i: int)
    | JNum(r: real)
    | JStr(s: string)
    | JArr(items: seq<Json>)
    | JObj(fields: map<string, Json>)

  /** One line of a JSONL file. */
  datatype Line = Blank | Garbage | Value(json: Json)

  /** Python truthiness, which decides `x or {}`. */
  predicate Truthy(j: Json) {
    match j
    case JNull => false
    case JBool(b) => b
    case JInt(i) => i != 0
    case JNum(r) => r != 0.0
    case JStr(s) => |s| > 0
    case JArr(items) => |items| > 0
    case JObj(fields) => |fields| > 0
  }

  /** `x or {}`: the value itself when truthy, otherwise an empty object. */
  function OrEmptyObject(j: Json): (r: Json)
    ensures Truthy(j) ==> r == j
    ensures !Truthy(j) ==> r == JObj(map[])
  {
    if Truthy(j) then j else JObj(map[])
  }

  /** `d.get(key)` on a dict. */
  function Get(fields: map<string, Json>, key: string): (r: Option<Json>)
    ensures r.Some? <==> key in fields
    ensures r.Some? ==> r.value == fields[key]
  {
    if key in fields then Some(fields[key]) else None
  }

  /** Python `int(x)` on a float: truncation toward zero. */
  function Trunc(r: real): (n: int)
    ensures r >= 0.0 ==> 0.0 <= n as real <= r < n as real + 1.0
    ensures r < 0.0 ==> n as real - 1.0 < r <= n as real <= 0.0
  {
    if r >= 0.0 then r.Floor else -((-r).Floor)
  }

  /** Python `int(x)`: `None` where Python raises TypeError or ValueError. */
  function ToInt(j: Json): (r: Option<int>)
    ensures j.JNull? || j.JArr? || j.JObj? ==> r.None?
    ensures j.JInt? ==> r == Some(j.i)
    ensures j.JBool? ==> r == Some(if j.b then 1 else 0)
    ensures j.JNum? ==> r == Some(Trunc(j.r))
    ensures j.JStr? ==> r == Decimal.ParseInt(j.s)
  {
    match j
    case JBool(b) => Some(if b then 1 else 0)
    case JInt(i) => Some(i)
    case JNum(x) => Some(Trunc(x))
    case JStr(s) => Decimal.ParseInt(s)
    case _ => None
  }

  /** Python `float(x)`: `None` where Python raises TypeError or ValueError. */
  function ToFloat(j: Json): (r: Option<real>)
    ensures j.JNull? || j.JArr? || j.JObj? ==> r.None?
    ensures j.JInt? ==> r == Some(j.i as real)
    ensures j.JBool? ==> r == Some(if j.b then 1.0 else 0.0)
    ensures j.JNum? ==> r == Some(j.r)
    ensures j.JStr? ==> r == Decimal.ParseFloat(j.s)
  {
    match j
    case JBool(b) => Some(if b then 1.0 else 0.0)
    case JInt(i) => Some(i as real)
    case JNum(x) => Some(x)
    case JStr(s) => Decimal.ParseFloat(s)
    case _ => None
  }

  /** `int("42")`, `int("-7")`, `float("1.5")` and `float(True)`; `int("1.5")` is a ValueError. */
  lemma ConversionExamples()
    ensures ToInt(JStr("42")) == Some(42)
    ensures ToInt(JStr("-7")) == Some(-7)
    ensures ToInt(JStr("1.5")).None?
    ensures ToFloat(JStr("1.5")) == Some(1.5)
    ensures ToFloat(JBool(true)) == Some(1.0)
  {
    assert Decimal.DigitsValue("42") == 42 by {
      assert "42"[..1] == "4";
    }
    assert !Decimal.AllDigits("1.5") by {
      assert !Decimal.IsDigit("1.5"[1]);
    }
    assert "-7"[0] == '-' && "-7"[1..] == "7";
    assert Decimal.AllDigits("7") && Decimal.DigitsValue("7") == 7;
    Decimal.ParseFloatExamples();
  }

  /** Text standing in for Python's `repr` of floats, lists and dicts. */
  const ReprPlaceholder: string := "<repr>"

  /** Python `str(x)`; never empty unless `x` is the empty string. */
  function PyStr(j: Json): (s: string)
    ensures j.JStr? ==> s == j.s
    ensures !j.JStr? ==> |s| > 0
  {
    match j
    case JStr(t) => t
    case JNull => "None"
    case JBool(b) => if b then "True" else "False"
    case JInt(i) => Decimal.IntToString(i)
    case _ => ReprPlaceholder
  }
}

=== FILE: live.dfy ===
/**
 * The streaming candle builder of `scripts/live_15m_candles.py`: the same
 * bucket-change logic as `build_5m_candles`, applied one input line at a
 * time, with the bookkeeping the script reports at the end.
 */
module LiveCandles {
  import opened Base
  import opened Json
  import opened Bucketing
  import opened Ticks
  import opened Candles
  import opened CandleRecords

  /**
   * The loop's variables: the open candle, the records appended to the
   * output file, the snapshot last written to the "latest" file, and the
   * counters of the stats lines.
   */
  datatype LiveState = LiveState(
    current: Option<Candle>,
    out: seq<CandleRecord>,
    latest: Option<CandleRecord>,
    ticksSeen: nat,
    lastTickMs: Option<int>)

  const Start: LiveState := LiveState(None, [], None, 0, None)

  /** The accepted tick a line carries, if any. */
  function AcceptedTick(l: Line, symbol: string): (r: Option<PriceTick>)
    ensures r.Some? ==> ParseTick(l) == r && Accepts(symbol, r.value)
    ensures r.None? ==> ParseTick(l).None? || !Accepts(symbol, ParseTick(l).value)
  {
    match ParseTick(l)
    case None => None
    case Some(t) => if Accepts(symbol, t) then Some(t) else None
  }

  /** One iteration of the `for raw in sys.stdin` loop. */
  function Step(s: LiveState, l: Line, z: Zone, symbol: string): (s': LiveState)
    ensures AcceptedTick(l, symbol).None? ==> s' == s
    ensures AcceptedTick(l, symbol).Some? ==>
      var t := AcceptedTick(l, symbol).value;
      && s'.ticksSeen == s.ticksSeen + 1
      && s'.lastTickMs == Some(t.tsMs)
      && s'.current.Some?
      && s'.latest == Some(ToRecord(s'.current.value, Tag15m))
      && s'.current.value.startMs == Key(t, z)
      && s'.current.value.lastTsMs == t.tsMs
      && s'.current.value.close == t.mid
  {
    match AcceptedTick(l, symbol)
    case None => s
    case Some(t) => Advance(s, t, z, symbol)
  }

  /**
   * The loop body on an accepted tick: a tick in another bucket flushes the
   * open candle and opens a new one; otherwise the open candle absorbs it.
   */
  function Advance(s: LiveState, t: PriceTick, z: Zone, symbol: string): LiveState {
    var start := CandleStart(t.tsMs, z);
    var (out, cur) :=
      if s.current.None? || start.startMs != s.current.value.startMs then
        (s.out + (if s.current.Some? then [ToRecord(s.current.value, Tag15m)] else []),
         Candle(start.startMs, start.local, symbol, t.mid, t.mid, t.mid, t.mid, 1, t.tsMs, t.tsMs))
      else
        (s.out, Absorb(s.current.value, t));
    LiveState(Some(cur), out, Some(ToRecord(cur, Tag15m)), s.ticksSeen + 1, Some(t.tsMs))
  }

  /** The EOF flush: the open candle, if any, is appended once. */
  function Flush(s: LiveState): seq<CandleRecord> {
    s.out + (if s.current.Some? then [ToRecord(s.current.value, Tag15m)] else [])
  }

  /** The `STATS_FINAL` line, without its wall-clock timestamp. */
  datatype FinalStats = FinalStats(ticksSeen: nat, lastTickMs: Option<int>,
                                   finalCandleStartMs: Option<int>, finalCandleTicks: nat)

  function Final(s: LiveState): FinalStats {
    FinalStats(s.ticksSeen, s.lastTickMs,
               if s.current.Some? then Some(s.current.value.startMs) else None,
               if s.current.Some? then s.current.value.ticks else 0)
  }

  /** The timestamp of the last of some ticks. */
  function LastTs(ts: seq<PriceTick>): (r: Option<int>)
    ensures r.None? <==> |ts| == 0
  {
    if |ts| == 0 then None else Some(Last(ts).tsMs)
  }

  function AsSeq(o: Option<PriceTick>): seq<PriceTick> {
    if o.Some? then [o.value] else []
  }

  /** The ticks of a line followed by more lines are that line's tick, then the rest. */
  lemma {:induction false} TicksOfCons(l: Line, rest: seq<Line>)
    ensures TicksOf([l] + rest) == AsSeq(ParseTick(l)) + TicksOf(rest)
  {
    assert ([l] + rest)[0] == l && ([l] + rest)[1..] == rest;
  }

  /** The accepted ticks of a line followed by more lines are that line's accepted tick, then the rest. */
  lemma {:induction false} AcceptedCons(l: Line, rest: seq<Line>, symbol: string)
    ensures TicksOf([l] + rest) == AsSeq(ParseTick(l)) + TicksOf(rest)
    ensures Accepted(TicksOf([l] + rest), symbol)
         == AsSeq(AcceptedTick(l, symbol)) + Accepted(TicksOf(rest), symbol)
  {
    TicksOfCons(l, rest);
    var ts := TicksOf(rest);
    if ParseTick(l).Some? {
      var ts' := [ParseTick(l).value] + ts;
      assert ts'[0] == ParseTick(l).value && ts'[1..] == ts;
    }
  }

  /** The batch builder's first step on a tick followed by more ticks. */
  lemma {:induction false} BuildFromCons(current: Option<Candle>, t: PriceTick, ts: seq<PriceTick>, z: Zone, symbol: string)
    ensures BuildFrom(current, [t] + ts, z, symbol)
         == if !Accepts(symbol, t) then BuildFrom(current, ts, z, symbol)
            else if current.None? || Key(t, z) != current.value.startMs then
              (if current.Some? then [current.value] else []) + BuildFrom(Some(Seed(t, z, symbol)), ts, z, symbol)
            else BuildFrom(Some(Absorb(current.value, t)), ts, z, symbol)
  {
    var here := [t] + ts;
    assert here[0] == t && here[1..] == ts;
  }

  /** A step emits into the output exactly what the batch builder emits for the same line. */
  lemma {:induction false} StepBuild(s: LiveState, emitted: seq<Candle>, l: Line, rest: seq<Line>, z: Zone, symbol: string)
    returns (emitted': seq<Candle>)
    requires s.out == Records(emitted, Tag15m)
    requires s.current.None? ==> emitted == []
    ensures Step(s, l, z, symbol).out == Records(emitted', Tag15m)
    ensures Step(s, l, z, symbol).current.None? ==> emitted' == []
    ensures emitted' + BuildFrom(Step(s, l, z, symbol).current, TicksOf(rest), z, symbol)
         == emitted + BuildFrom(s.current, TicksOf([l] + rest), z, symbol)
  {
    TicksOfCons(l, rest);
    var ts := TicksOf(rest);
    match AcceptedTick(l, symbol) {
      case None =>
        emitted' := emitted;
        StepSkips(s.current, l, ts, z, symbol);
      case Some(t) =>
        assert Step(s, l, z, symbol) == Advance(s, t, z, symbol);
        assert AsSeq(ParseTick(l)) == [t];
        emitted' := AdvanceBuild(s, emitted, t, ts, z, symbol);
    }
  }

  /** On an accepted tick, the step and the batch builder emit the same candles. */
  lemma {:induction false} AdvanceBuild(s: LiveState, emitted: seq<Candle>, t: PriceTick, ts: seq<PriceTick>,
                                        z: Zone, symbol: string)
    returns (emitted': seq<Candle>)
    requires Accepts(symbol, t)
    requires s.out == Records(emitted, Tag15m)
    requires s.current.None? ==> emitted == []
    ensures Advance(s, t, z, symbol).out == Records(emitted', Tag15m)
    ensures emitted' + BuildFrom(Advance(s, t, z, symbol).current, ts, z, symbol)
         == emitted + BuildFrom(s.current, [t] + ts, z, symbol)
  {
    if s.current.None? || Key(t, z) != s.current.value.startMs {
      emitted' := OpenBuild(s, emitted, t, ts, z, symbol);
    } else {
      emitted' := emitted;
      AbsorbStep(s, t, ts, z, symbol);
    }
  }

  /** A tick in the open candle's bucket is absorbed and nothing is emitted. */
  lemma AbsorbStep(s: LiveState, t: PriceTick, ts: seq<PriceTick>, z: Zone, symbol: string)
    requires Accepts(symbol, t)
    requires s.current.Some? && Key(t, z) == s.current.value.startMs
    ensures Advance(s, t, z, symbol).out == s.out
    ensures BuildFrom(Advance(s, t, z, symbol).current, ts, z, symbol) == BuildFrom(s.current, [t] + ts, z, symbol)
  {
    BuildFromCons(s.current, t, ts, z, symbol);
  }

  /** A line without an accepted tick leaves the batch builder where it was. */
  lemma {:induction false} StepSkips(current: Option<Candle>, l: Line, ts: seq<PriceTick>, z: Zone, symbol: string)
    requires AcceptedTick(l, symbol).None?
    ensures BuildFrom(current, AsSeq(ParseTick(l)) + ts, z, symbol) == BuildFrom(current, ts, z, symbol)
  {
    if ParseTick(l).Some? {
      BuildFromCons(current, ParseTick(l).value, ts, z, symbol);
    } else {
      assert AsSeq(ParseTick(l)) + ts == ts;
    }
  }

  /** A tick in another bucket emits the open candle, if any, and opens the tick's own. */
  lemma {:induction false} OpenBuild(s: LiveState, emitted: seq<Candle>, t: PriceTick, ts: seq<PriceTick>,
                                     z: Zone, symbol: string)
    returns (emitted': seq<Candle>)
    requires Accepts(symbol, t)
    requires s.current.None? || Key(t, z) != s.current.value.startMs
    requires s.out == Records(emitted, Tag15m)
    requires s.current.None? ==> emitted == []
    ensures Advance(s, t, z, symbol).current == Some(Seed(t, z, symbol))
    ensures Advance(s, t, z, symbol).out == Records(emitted', Tag15m)
    ensures emitted' + BuildFrom(Some(Seed(t, z, symbol)), ts, z, symbol)
         == emitted + BuildFrom(s.current, [t] + ts, z, symbol)
  {
    BuildFromCons(s.current, t, ts, z, symbol);
    var rest := BuildFrom(Some(Seed(t, z, symbol)), ts, z, symbol);
    emitted' := emitted;
    if s.current.Some? {
      RecordsSnoc(emitted, s.current.value, Tag15m);
      emitted' := emitted + [s.current.value];
      assert emitted' + rest == emitted + ([s.current.value] + rest);
    } else {
      assert BuildFrom(s.current, [t] + ts, z, symbol) == [] + rest;
    }
  }

  /** A step keeps the counters in line with the accepted ticks still to come. */
  lemma {:induction false} StepCount(s: LiveState, l: Line, rest: seq<Line>, z: Zone, symbol: string)
    ensures Step(s, l, z, symbol).ticksSeen + |Accepted(TicksOf(rest), symbol)|
         == s.ticksSeen + |Accepted(TicksOf([l] + rest), symbol)|
    ensures (if |Accepted(TicksOf([l] + rest), symbol)| > 0
             then LastTs(Accepted(TicksOf([l] + rest), symbol)) else s.lastTickMs)
         == (if |Accepted(TicksOf(rest), symbol)| > 0
             then LastTs(Accepted(TicksOf(rest), symbol)) else Step(s, l, z, symbol).lastTickMs)
  {
    AcceptedCons(l, rest, symbol);
    var a := Accepted(TicksOf(rest), symbol);
    if AcceptedTick(l, symbol).Some? && |a| > 0 {
      assert Last([AcceptedTick(l, symbol).value] + a) == Last(a);
    }
  }

  /**
   * What holds between iterations, with `emitted` the candles appended so
   * far and `suffix` the lines still to read: the emitted candles and the
   * batch builder on the rest from the open candle make up `all`, and the
   * counters plus the accepted ticks still to come describe `acc`.
   */
  ghost predicate Inv(s: LiveState, emitted: seq<Candle>, suffix: seq<Line>,
                      all: seq<Candle>, acc: seq<PriceTick>, z: Zone, symbol: string)
  {
    && s.out == Records(emitted, Tag15m)
    && emitted + BuildFrom(s.current, TicksOf(suffix), z, symbol) == all
    && (s.current.None? ==> emitted == [])
    && s.latest == (if s.current.Some? then Some(ToRecord(s.current.value, Tag15m)) else None)
    && s.ticksSeen + |Accepted(TicksOf(suffix), symbol)| == |acc|
    && LastTs(acc) == (if |Accepted(TicksOf(suffix), symbol)| > 0
                       then LastTs(Accepted(TicksOf(suffix), symbol)) else s.lastTickMs)
  }

  lemma {:induction false} StepInv(s: LiveState, emitted: seq<Candle>, lines: seq<Line>, i: nat,
                                   all: seq<Candle>, acc: seq<PriceTick>, z: Zone, symbol: string)
    returns (emitted': seq<Candle>)
    requires i < |lines|
    requires Inv(s, emitted, lines[i..], all, acc, z, symbol)
    ensures Inv(Step(s, lines[i], z, symbol), emitted', lines[i + 1..], all, acc, z, symbol)
  {
    assert lines[i..] == [lines[i]] + lines[i + 1..];
    emitted' := StepBuild(s, emitted, lines[i], lines[i + 1..], z, symbol);
    StepCount(s, lines[i], lines[i + 1..], z, symbol);
  }

  lemma StartInv(lines: seq<Line>, z: Zone, symbol: string)
    ensures Inv(Start, [], lines[0..], Build5m(TicksOf(lines), z, symbol), Accepted(TicksOf(lines), symbol), z, symbol)
  {
    assert lines[0..] == lines;
  }

  /** At end of input the flush completes the batch output and the counters are final. */
  lemma {:induction false} FinishInv(s: LiveState, emitted: seq<Candle>, all: seq<Candle>, acc: seq<PriceTick>, z: Zone, symbol: string)
    requires Inv(s, emitted, [], all, acc, z, symbol)
    ensures Flush(s) == Records(all, Tag15m)
    ensures s.ticksSeen == |acc| && s.lastTickMs == LastTs(acc)
    ensures s.current.None? <==> |all| == 0
    ensures s.current.Some? ==> s.current == Some(Last(all)) && s.latest == Some(ToRecord(Last(all), Tag15m))
    ensures s.current.None? ==> s.latest.None?
  {
    assert TicksOf([]) == [] && Accepted([], symbol) == [];
    assert emitted + BuildFrom(s.current, [], z, symbol) == all;
    if s.current.Some? {
      assert all == emitted + [s.current.value];
      RecordsSnoc(emitted, s.current.value, Tag15m);
    } else {
      assert all == [];
    }
  }

  /** The end-of-input outputs, stated against the whole input. */
  lemma {:induction false} FinishRun(s: LiveState, emitted: seq<Candle>, lines: seq<Line>, z: Zone, symbol: string)
    requires Inv(s, emitted, lines[|lines|..], Build5m(TicksOf(lines), z, symbol), Accepted(TicksOf(lines), symbol), z, symbol)
    ensures Flush(s) == Records(Build5m(TicksOf(lines), z, symbol), Tag15m)
    ensures Final(s).ticksSeen == |Accepted(TicksOf(lines), symbol)|
    ensures Final(s).lastTickMs == LastTs(Accepted(TicksOf(lines), symbol))
    ensures s.latest.None? <==> |Build5m(TicksOf(lines), z, symbol)| == 0
    ensures s.latest.Some? ==>
      var cs := Build5m(TicksOf(lines), z, symbol);
      && s.latest == Some(ToRecord(Last(cs), Tag15m))
      && Final(s).finalCandleTicks == Last(cs).ticks
      && Final(s).finalCandleStartMs == Some(Last(cs).startMs)
    ensures s.latest.None? ==> Final(s).finalCandleTicks == 0 && Final(s).finalCandleStartMs.None?
  {
    assert lines[|lines|..] == [];
    FinishInv(s, emitted, Build5m(TicksOf(lines), z, symbol), Accepted(TicksOf(lines), symbol), z, symbol);
  }

  /**
   * The streaming loop, the EOF flush and the final stats. The records
   * appended are those of `build_5m_candles` on the same lines, in order;
   * the snapshot is the record of the last candle; the counters describe
   * the accepted ticks.
   */
  method RunLive(lines: seq<Line>, z: Zone, symbol: string)
    returns (out: seq<CandleRecord>, latest: Option<CandleRecord>, stats: FinalStats)
    ensures out == Records(Build5m(TicksOf(lines), z, symbol), Tag15m)
    ensures stats.ticksSeen == |Accepted(TicksOf(lines), symbol)|
    ensures stats.lastTickMs == LastTs(Accepted(TicksOf(lines), symbol))
    ensures latest.None? <==> |Build5m(TicksOf(lines), z, symbol)| == 0
    ensures latest.Some? ==>
      var cs := Build5m(TicksOf(lines), z, symbol);
      && latest == Some(ToRecord(Last(cs), Tag15m))
      && stats.finalCandleTicks == Last(cs).ticks
      && stats.finalCandleStartMs == Some(Last(cs).startMs)
    ensures latest.None? ==> stats.finalCandleTicks == 0 && stats.finalCandleStartMs.None?
  {
    ghost var all := Build5m(TicksOf(lines), z, symbol);
    ghost var acc := Accepted(TicksOf(lines), symbol);
    var s := Start;
    ghost var emitted: seq<Candle> := [];
    var i := 0;
    StartInv(lines, z, symbol);
    while i < |lines|
      invariant 0 <= i <= |lines|
      invariant Inv(s, emitted, lines[i..], all, acc, z, symbol)
    {
      emitted := StepInv(s, emitted, lines, i, all, acc, z, symbol);
      s := Step(s, lines[i], z, symbol);
      i := i + 1;
    }
    FinishRun(s, emitted, lines, z, symbol);
    out := Flush(s);
    latest := s.latest;
    stats := Final(s);
  }
}

=== FILE: paper.dfy ===
/**
 * The paper execution engine (`kalshi_bot/sim/paper.py`): best prices
 * scraped from venue market data, and order intents acknowledged and
 * filled at once when they cross those prices.
 */
module Paper {
  import opened Base
  import opened Json
  import opened Decimal
  import opened Events
  import opened State

  datatype PaperConfig = PaperConfig(fillOnCross: bool)

  const DefaultPaperConfig: PaperConfig := PaperConfig(true)

  /** The executor's state: the last known best bid and ask in cents and the next order number. */
  datatype PaperExecutor = PaperExecutor(cfg: PaperConfig, bestBid: Option<int>, bestAsk: Option<int>, nextId: nat)

  /** `PaperExecutor(cfg)`: no prices known, numbering from 1. */
  function NewExecutor(cfg: PaperConfig): (px: PaperExecutor)
    ensures px.cfg == cfg && px.bestBid.None? && px.bestAsk.None? && px.nextId == 1
  {
    PaperExecutor(cfg, None, None, 1)
  }

  // ---------------------------------------------------------------------
  // on_marketdata
  // ---------------------------------------------------------------------

  /** The key pairs probed for a quote, in order. */
  const QuotePairs: seq<(string, string)> := [("bid", "ask"), ("best_bid", "best_ask"), ("yes_bid", "yes_ask")]

  /**
   * `raw` of an event payload, when the payload is an object and `raw` is an
   * object too (an empty payload object is falsy and becomes `{}`).
   */
  function RawOf(payload: Json): (r: Option<map<string, Json>>)
    ensures r.Some? <==> payload.JObj? && "raw" in payload.fields && payload.fields["raw"].JObj?
    ensures r.Some? ==> r.value == payload.fields["raw"].fields
  {
    if !payload.JObj? then None
    else match Get(OrEmptyObject(payload).fields, "raw")
      case Some(JObj(raw)) => Some(raw)
      case _ => None
  }

  /** Both keys of a pair are present and both values convert with `int()`. */
  predicate Complete(raw: map<string, Json>, pair: (string, string)) {
    pair.0 in raw && pair.1 in raw && ToInt(raw[pair.0]).Some? && ToInt(raw[pair.1]).Some?
  }

  /**
   * The probing loop: a pair with both keys present assigns the bid, then
   * the ask, and stops; a conversion that raises is swallowed and probing
   * goes on, keeping whatever was already assigned.
   */
  function Probe(px: PaperExecutor, raw: map<string, Json>, pairs: seq<(string, string)>): (r: PaperExecutor)
    ensures r.cfg == px.cfg && r.nextId == px.nextId
    ensures r.bestAsk != px.bestAsk ==> exists k :: 0 <= k < |pairs| && Complete(raw, pairs[k])
    decreases |pairs|
  {
    if |pairs| == 0 then px
    else
      var kb := pairs[0].0;
      var ka := pairs[0].1;
      if kb in raw && ka in raw then
        match ToInt(raw[kb])
        case None => Probe(px, raw, pairs[1..])
        case Some(b) =>
          match ToInt(raw[ka])
          case None => Probe(px.(bestBid := Some(b)), raw, pairs[1..])
          case Some(a) => px.(bestBid := Some(b), bestAsk := Some(a))
      else Probe(px, raw, pairs[1..])
  }

  /** The first complete pair sets both prices, whatever came before it. */
  lemma {:induction false} ProbeFirstComplete(px: PaperExecutor, raw: map<string, Json>, pairs: seq<(string, string)>, k: nat)
    requires k < |pairs| && Complete(raw, pairs[k])
    requires forall j :: 0 <= j < k ==> !Complete(raw, pairs[j])
    ensures Probe(px, raw, pairs).bestBid == ToInt(raw[pairs[k].0])
    ensures Probe(px, raw, pairs).bestAsk == ToInt(raw[pairs[k].1])
    decreases k
  {
    if k > 0 {
      assert !Complete(raw, pairs[0]);
      var px' := if pairs[0].0 in raw && pairs[0].1 in raw && ToInt(raw[pairs[0].0]).Some?
                 then px.(bestBid := ToInt(raw[pairs[0].0])) else px;
      assert Probe(px, raw, pairs) == Probe(px', raw, pairs[1..]);
      ProbeFirstComplete(px', raw, pairs[1..], k - 1);
    }
  }

  /** With no complete pair the ask is never written. */
  lemma ProbeNoComplete(px: PaperExecutor, raw: map<string, Json>, pairs: seq<(string, string)>)
    requires forall j :: 0 <= j < |pairs| ==> !Complete(raw, pairs[j])
    ensures Probe(px, raw, pairs).bestAsk == px.bestAsk
  {
  }

  /** Both keys of a pair are present and the bid converts: probing assigns this bid. */
  predicate BidConverts(raw: map<string, Json>, pair: (string, string)) {
    pair.0 in raw && pair.1 in raw && ToInt(raw[pair.0]).Some?
  }

  /**
   * The bid of the last pair whose bid converts, or `prior` when there is
   * none: what probing leaves behind when no pair completes.
   */
  function LastBid(prior: Option<int>, raw: map<string, Json>, pairs: seq<(string, string)>): Option<int>
    decreases |pairs|
  {
    if |pairs| == 0 then prior
    else
      var p := pairs[|pairs| - 1];
      if BidConverts(raw, p) then ToInt(raw[p.0]) else LastBid(prior, raw, pairs[..|pairs| - 1])
  }

  /** Peeling the first pair off `LastBid`: it becomes the prior the rest starts from. */
  lemma {:induction false} LastBidFront(prior: Option<int>, raw: map<string, Json>, pairs: seq<(string, string)>)
    requires |pairs| > 0
    ensures LastBid(prior, raw, pairs)
         == LastBid(if BidConverts(raw, pairs[0]) then ToInt(raw[pairs[0].0]) else prior, raw, pairs[1..])
    decreases |pairs|
  {
    var n := |pairs|;
    if n > 1 && !BidConverts(raw, pairs[n - 1]) {
      LastBidFront(prior, raw, pairs[..n - 1]);
      assert pairs[..n - 1][1..] == pairs[1..][..n - 2];
    }
  }

  /**
   * With no complete pair, probing changes the bid only: it ends as the bid
   * of the last pair whose bid converts, or stays when there is no such pair.
   */
  lemma {:induction false} ProbePartial(px: PaperExecutor, raw: map<string, Json>, pairs: seq<(string, string)>)
    requires forall j :: 0 <= j < |pairs| ==> !Complete(raw, pairs[j])
    ensures Probe(px, raw, pairs) == px.(bestBid := LastBid(px.bestBid, raw, pairs))
    decreases |pairs|
  {
    if |pairs| > 0 {
      LastBidFront(px.bestBid, raw, pairs);
      var px' := if BidConverts(raw, pairs[0]) then px.(bestBid := ToInt(raw[pairs[0].0])) else px;
      assert !Complete(raw, pairs[0]);
      assert Probe(px, raw, pairs) == Probe(px', raw, pairs[1..]);
      ProbePartial(px', raw, pairs[1..]);
    }
  }

  /** `on_marketdata(ev)`: only the best prices can change. */
  function OnMarketdata(px: PaperExecutor, ev: Event): (r: PaperExecutor)
    ensures r.cfg == px.cfg && r.nextId == px.nextId
    ensures RawOf(ev.payload).None? ==> r == px
  {
    match RawOf(ev.payload)
    case None => px
    case Some(raw) => Probe(px, raw, QuotePairs)
  }

  /** A quote under `bid`/`ask` sets both prices. */
  lemma QuoteExample(px: PaperExecutor, ts: int, kind: Json)
    ensures var raw := map["bid" := JInt(49), "ask" := JInt(51)];
      var r := OnMarketdata(px, Event(ts, kind, JObj(map["raw" := JObj(raw)])));
      r.bestBid == Some(49) && r.bestAsk == Some(51)
  {
    var raw := map["bid" := JInt(49), "ask" := JInt(51)];
    ProbeFirstComplete(px, raw, QuotePairs, 0);
  }

  /** A bid that converts next to an ask that does not: the bid is overwritten, the ask kept. */
  lemma PartialUpdateExample(px: PaperExecutor, ts: int, kind: Json)
    ensures var raw := map["bid" := JInt(40), "ask" := JStr("n/a")];
      var r := OnMarketdata(px, Event(ts, kind, JObj(map["raw" := JObj(raw)])));
      r.bestBid == Some(40) && r.bestAsk == px.bestAsk
  {
    var raw := map["bid" := JInt(40), "ask" := JStr("n/a")];
    assert ToInt(JStr("n/a")).None? by {
      assert ParseInt("n/a").None? by {
        assert !IsDigit('n') && !IsDigit('/');
      }
    }
    assert "best_bid" !in raw && "yes_bid" !in raw;
  }

  /** A convertible `best_bid` beside an unconvertible `best_ask`: the bid is taken, the ask kept. */
  lemma PartialBestBidExample(px: PaperExecutor, ts: int, kind: Json)
    ensures var raw := map["best_bid" := JInt(40), "best_ask" := JStr("n/a")];
      var r := OnMarketdata(px, Event(ts, kind, JObj(map["raw" := JObj(raw)])));
      r == px.(bestBid := Some(40))
  {
    var raw := map["best_bid" := JInt(40), "best_ask" := JStr("n/a")];
    assert ToInt(JStr("n/a")).None? by {
      assert ParseInt("n/a").None? by {
        assert !IsDigit('n') && !IsDigit('/');
      }
    }
    assert "bid" !in raw && "yes_bid" !in raw;
    ProbePartial(px, raw, QuotePairs);
    assert QuotePairs[..2][..1] == [QuotePairs[0]];
  }

  // ---------------------------------------------------------------------
  // submit_intent
  // ---------------------------------------------------------------------

  /** The order id for order number `n`. */
  function PaperId(n: nat): string {
    "paper:" + NatToString(n)
  }

  /** Ids of different order numbers differ, so ids handed out by one executor never repeat. */
  lemma PaperIdInjective(m: nat, n: nat)
    ensures PaperId(m) == PaperId(n) <==> m == n
  {
    if PaperId(m) == PaperId(n) {
      assert NatToString(m) == PaperId(m)[6..];
      assert NatToString(n) == PaperId(n)[6..];
      NatToStringInjective(m, n);
    }
  }

  /** The intent as the JSON object it is echoed as in an acknowledgement. */
  function IntentJson(i: Intent): Json {
    var base := map["side" := JStr(i.side), "price" := JInt(i.price), "contract" := JStr(i.contract)];
    JObj(if i.qty.Some? then base["qty" := JInt(i.qty.value)] else base)
  }

  /** A buy at or above the best ask, or a sell at or below the best bid, with both prices known. */
  predicate Crosses(i: Intent, px: PaperExecutor) {
    && px.bestBid.Some? && px.bestAsk.Some?
    && ((i.side == "buy" && i.price >= px.bestAsk.value) || (i.side == "sell" && i.price <= px.bestBid.value))
  }

  predicate Fills(i: Intent, px: PaperExecutor) {
    px.cfg.fillOnCross && Crosses(i, px)
  }

  /** The acknowledgement, carrying the id and the submitted intent. */
  function AckEvent(tsMs: int, oid: string, i: Intent): (ev: Event)
    ensures ev.Is(ORDER_ACK) && ev.tsMs == tsMs
    ensures ev.payload.JObj?
    ensures Get(ev.payload.fields, "order_id") == Some(JStr(oid))
    ensures Get(ev.payload.fields, "intent") == Some(IntentJson(i))
  {
    MakeEvent(tsMs, ORDER_ACK, JObj(map["order_id" := JStr(oid), "intent" := IntentJson(i)]))
  }

  /** The fill at the submitted price, the quantity defaulting to 0. */
  function FillEvent(tsMs: int, oid: string, i: Intent): (ev: Event)
    ensures ev.payload.JObj?
    ensures Get(ev.payload.fields, "order_id") == Some(JStr(oid))
    ensures Get(ev.payload.fields, "price") == Some(JInt(i.price))
    ensures Get(ev.payload.fields, "qty") == Some(JNum(i.qty.GetOr(0) as real))
  {
    MakeEvent(tsMs, ORDER_FILL,
              JObj(map["order_id" := JStr(oid), "price" := JInt(i.price), "qty" := JNum(i.qty.GetOr(0) as real)]))
  }

  /** What one `submit_intent` call produces: the id, both updated states and the emitted events. */
  datatype Submission = Submission(oid: string, px: PaperExecutor, st: BotState, emitted: seq<Event>)

  /**
   * `submit_intent(intent, st, emit, ts_ms)`: the next id is taken, the
   * order is filed under it and acknowledged, and on a cross it is filled
   * and removed again.
   */
  function SubmitIntent(px: PaperExecutor, i: Intent, st: BotState, tsMs: int): (s: Submission)
    ensures s.oid == PaperId(px.nextId)
    ensures s.px == px.(nextId := px.nextId + 1)
    ensures s.st.invYes == st.invYes && s.st.pnlUsd == st.pnlUsd && s.st.fairProb == st.fairProb
    ensures |s.emitted| == (if Fills(i, px) then 2 else 1)
    ensures s.emitted[0] == AckEvent(tsMs, s.oid, i)
    ensures s.emitted[0].Is(ORDER_ACK) && s.emitted[0].tsMs == tsMs
    ensures Fills(i, px) ==> s.emitted[1] == FillEvent(tsMs, s.oid, i) && s.emitted[1].Is(ORDER_FILL)
    ensures s.oid in s.st.openOrders <==> !Fills(i, px)
    ensures s.oid in s.st.openOrders ==> s.st.openOrders[s.oid] == i
    ensures forall k :: k != s.oid ==>
      (k in s.st.openOrders <==> k in st.openOrders)
      && (k in st.openOrders ==> s.st.openOrders[k] == st.openOrders[k])
  {
    var oid := PaperId(px.nextId);
    var px' := px.(nextId := px.nextId + 1);
    var filed := st.(openOrders := st.openOrders[oid := i]);
    var ack := AckEvent(tsMs, oid, i);
    if !px.cfg.fillOnCross then Submission(oid, px', filed, [ack])
    else if Crosses(i, px) then
      Submission(oid, px', filed.(openOrders := filed.openOrders - {oid}), [ack, FillEvent(tsMs, oid, i)])
    else Submission(oid, px', filed, [ack])
  }

  /** With bid 49 and ask 51: buy 51 and sell 49 fill, buy 50 and sell 50 rest. */
  lemma CrossingExample(st: BotState, tsMs: int)
    ensures var px := PaperExecutor(DefaultPaperConfig, Some(49), Some(51), 1);
      && |SubmitIntent(px, Intent("buy", 51, Some(1), "YES"), st, tsMs).emitted| == 2
      && |SubmitIntent(px, Intent("buy", 50, Some(1), "YES"), st, tsMs).emitted| == 1
      && |SubmitIntent(px, Intent("sell", 49, Some(1), "YES"), st, tsMs).emitted| == 2
      && |SubmitIntent(px, Intent("sell", 50, Some(1), "YES"), st, tsMs).emitted| == 1
  {
  }

  /** Without both prices known nothing fills, whatever the price. */
  lemma NoQuoteNoFill(px: PaperExecutor, i: Intent, st: BotState, tsMs: int)
    requires px.bestBid.None? || px.bestAsk.None?
    ensures |SubmitIntent(px, i, st, tsMs).emitted| == 1
    ensures SubmitIntent(px, i, st, tsMs).oid in SubmitIntent(px, i, st, tsMs).st.openOrders
  {
  }
}

=== FILE: recorder.dfy ===
/**
 * The append-only event log (`kalshi_bot/io/recorder.py`): one JSON record
 * per line, read back in full and stably sorted by timestamp.
 */
module Recorder {
  import opened Base
  import opened Json
  import opened Events

  // ---------------------------------------------------------------------
  // Stable sort by `ts_ms` (Python's `list.sort(key=...)` is stable).
  // ---------------------------------------------------------------------

  ghost predicate SortedByTs(evs: seq<Event>) {
    forall i, j :: 0 <= i < j < |evs| ==> evs[i].tsMs <= evs[j].tsMs
  }

  /** The events with timestamp `k`, in their order in `evs`. */
  function WithTs(evs: seq<Event>, k: int): seq<Event> {
    if |evs| == 0 then []
    else (if evs[0].tsMs == k then [evs[0]] else []) + WithTs(evs[1..], k)
  }

  /** Insert `x` before the first element whose timestamp is not smaller. */
  function InsertByTs(x: Event, s: seq<Event>): (r: seq<Event>)
    ensures multiset(r) == multiset(s) + multiset{x}
  {
    if |s| == 0 || x.tsMs <= s[0].tsMs then [x] + s
    else
      assert s == [s[0]] + s[1..];
      [s[0]] + InsertByTs(x, s[1..])
  }

  lemma {:induction false} InsertByTsSorted(x: Event, s: seq<Event>)
    requires SortedByTs(s)
    ensures SortedByTs(InsertByTs(x, s))
    ensures forall i :: 0 <= i < |InsertByTs(x, s)| ==>
      InsertByTs(x, s)[i] == x || InsertByTs(x, s)[i] in s
  {
    if |s| == 0 || x.tsMs <= s[0].tsMs {
    } else {
      InsertByTsSorted(x, s[1..]);
      var t := InsertByTs(x, s[1..]);
      assert forall i :: 0 <= i < |t| ==> s[0].tsMs <= t[i].tsMs;
    }
  }

  lemma {:induction false} InsertByTsWithTs(x: Event, s: seq<Event>, k: int)
    requires SortedByTs(s)
    ensures WithTs(InsertByTs(x, s), k) == (if x.tsMs == k then [x] else []) + WithTs(s, k)
  {
    var r := InsertByTs(x, s);
    if |s| == 0 || x.tsMs <= s[0].tsMs {
      assert r[1..] == s;
      assert WithTs(r, k) == (if x.tsMs == k then [x] else []) + WithTs(r[1..], k);
    } else {
      var t := InsertByTs(x, s[1..]);
      InsertByTsWithTs(x, s[1..], k);
      assert r[0] == s[0] && r[1..] == t;
      assert WithTs(r, k) == (if s[0].tsMs == k then [s[0]] else []) + WithTs(t, k);
      assert WithTs(s, k) == (if s[0].tsMs == k then [s[0]] else []) + WithTs(s[1..], k);
      if s[0].tsMs == k {
        assert x.tsMs != k;
      } else if x.tsMs == k {
        assert WithTs(r, k) == [x] + WithTs(s[1..], k);
      } else {
        assert WithTs(r, k) == WithTs(s[1..], k);
      }
    }
  }

  /**
   * Timestamp order, ties in input order: sorted, a permutation, and for
   * every timestamp the events carrying it keep their relative order.
   */
  function SortByTs(evs: seq<Event>): (r: seq<Event>)
    ensures SortedByTs(r)
    ensures multiset(r) == multiset(evs)
  {
    if |evs| == 0 then []
    else
      assert evs == [evs[0]] + evs[1..];
      var rest := SortByTs(evs[1..]);
      InsertByTsSorted(evs[0], rest);
      InsertByTs(evs[0], rest)
  }

  /** Stability: the events sharing a timestamp keep their input order. */
  lemma {:induction false} SortByTsStable(evs: seq<Event>, k: int)
    ensures WithTs(SortByTs(evs), k) == WithTs(evs, k)
  {
    if |evs| > 0 {
      SortByTsStable(evs[1..], k);
      InsertByTsWithTs(evs[0], SortByTs(evs[1..]), k);
    }
  }

  lemma {:induction false} WithTsMember(evs: seq<Event>, e: Event)
    ensures e in evs <==> e in WithTs(evs, e.tsMs)
  {
    if |evs| > 0 {
      WithTsMember(evs[1..], e);
      assert evs == [evs[0]] + evs[1..];
    }
  }

  /**
   * Sortedness and per-timestamp order pin the result down: any sequence
   * with both properties is the stable sort.
   */
  lemma {:induction false} StableSortUnique(a: seq<Event>, b: seq<Event>)
    requires SortedByTs(a) && SortedByTs(b)
    requires forall k :: WithTs(a, k) == WithTs(b, k)
    ensures a == b
  {
    if |a| > 0 {
      assert |WithTs(a, a[0].tsMs)| > 0;
    }
    if |b| > 0 {
      assert |WithTs(b, b[0].tsMs)| > 0;
    }
    if |a| == 0 || |b| == 0 {
    } else {
      var ka, kb := a[0].tsMs, b[0].tsMs;
      assert a[0] in WithTs(b, ka) by { assert WithTs(a, ka)[0] == a[0]; }
      WithTsMember(b, a[0]);
      assert b[0] in WithTs(a, kb) by { assert WithTs(b, kb)[0] == b[0]; }
      WithTsMember(a, b[0]);
      assert ka == kb;
      assert a[0] == b[0] by {
        assert WithTs(a, ka)[0] == a[0];
        assert WithTs(b, kb)[0] == b[0];
      }
      forall k ensures WithTs(a[1..], k) == WithTs(b[1..], k) {
        var p := if a[0].tsMs == k then [a[0]] else [];
        assert WithTs(a, k) == p + WithTs(a[1..], k);
        assert WithTs(b, k) == p + WithTs(b[1..], k);
        assert WithTs(a[1..], k) == (p + WithTs(a[1..], k))[|p|..];
        assert WithTs(b[1..], k) == (p + WithTs(b[1..], k))[|p|..];
      }
      StableSortUnique(a[1..], b[1..]);
      assert a == [a[0]] + a[1..];
      assert b == [b[0]] + b[1..];
    }
  }
}

module RecorderLog {
  import opened Base
  import opened Json
  import opened Events
  import opened Recorder

  /** A log file: absent, or present with its lines in file order. */
  datatype LogFile = Missing | Present(lines: seq<Line>)

  function LinesOf(f: LogFile): seq<Line> {
    if f.Present? then f.lines else []
  }

  /** The line `append` writes: an object with `ts_ms`, `type` and `payload`. */
  function EncodeEvent(ev: Event): (l: Line)
    ensures l.Value? && l.json.JObj? && l.json.fields.Keys == {"ts_ms", "type", "payload"}
    ensures l.json.fields["ts_ms"] == JInt(ev.tsMs) && l.json.fields["type"] == ev.kind
    ensures l.json.fields["payload"] == ev.payload
  {
    Value(JObj(map["ts_ms" := JInt(ev.tsMs), "type" := ev.kind, "payload" := ev.payload]))
  }

  function EncodeAll(evs: seq<Event>): (ls: seq<Line>)
    ensures |ls| == |evs|
    ensures forall i :: 0 <= i < |evs| ==> ls[i] == EncodeEvent(evs[i])
  {
    if |evs| == 0 then [] else [EncodeEvent(evs[0])] + EncodeAll(evs[1..])
  }

  /** `JsonlRecorder.append`: opening in append mode creates the file, then one line is added. */
  function Append(f: LogFile, ev: Event): (g: LogFile)
    ensures g.Present? && |g.lines| == |LinesOf(f)| + 1
    ensures g.lines[..|LinesOf(f)|] == LinesOf(f)
    ensures g.lines[|LinesOf(f)|] == EncodeEvent(ev)
  {
    Present(LinesOf(f) + [EncodeEvent(ev)])
  }

  /** `JsonlRecorder.extend`: one open in append mode, then one line per event. */
  function Extend(f: LogFile, evs: seq<Event>): (g: LogFile)
    ensures g.Present? && |g.lines| == |LinesOf(f)| + |evs|
    ensures g.lines[..|LinesOf(f)|] == LinesOf(f)
    ensures forall i :: 0 <= i < |evs| ==> g.lines[|LinesOf(f)| + i] == EncodeEvent(evs[i])
  {
    Present(LinesOf(f) + EncodeAll(evs))
  }

  /** Calling `append` once per event, in order. */
  function AppendEach(f: LogFile, evs: seq<Event>): LogFile
    decreases |evs|
  {
    if |evs| == 0 then f else AppendEach(Append(f, evs[0]), evs[1..])
  }

  /** Why a line stops `read_jsonl`. */
  datatype ReadFault =
    | Undecodable            // json.loads raises
    | NotAnObject            // obj["ts_ms"] on a list, string, number, bool or null
    | MissingField(name: string)
    | BadTimestamp           // int(obj["ts_ms"]) raises

  /** The exception `read_jsonl` propagates, with the index of the offending line. */
  datatype ReadError = ReadError(lineIndex: nat, fault: ReadFault)

  /** A missing or falsy payload reads back as `{}`. */
  function NormalizePayload(ev: Event): Event {
    ev.(payload := OrEmptyObject(ev.payload))
  }

  /**
   * One decoded line as `read_jsonl` treats it: `ts_ms` is looked up and
   * converted first, then `type`; a blank line yields nothing.
   */
  function DecodeLine(l: Line): (r: Result<Option<Event>, ReadFault>)
    ensures l.Blank? <==> r == Ok(None)
    ensures l.Garbage? ==> r == Err(Undecodable)
    ensures r.Ok? && r.value.Some? ==>
      (l.Value? && l.json.JObj? && "ts_ms" in l.json.fields && "type" in l.json.fields
       && ToInt(l.json.fields["ts_ms"]) == Some(r.value.value.tsMs)
       && r.value.value.kind == l.json.fields["type"]
       && r.value.value.payload == OrEmptyObject(Get(l.json.fields, "payload").GetOr(JNull)))
    ensures (l.Value? && l.json.JObj? && "ts_ms" in l.json.fields && "type" in l.json.fields
             && ToInt(l.json.fields["ts_ms"]).Some?) ==> r.Ok? && r.value.Some?
  {
    match l
    case Blank => Ok(None)
    case Garbage => Err(Undecodable)
    case Value(j) =>
      if !j.JObj? then Err(NotAnObject)
      else if "ts_ms" !in j.fields then Err(MissingField("ts_ms"))
      else
        match ToInt(j.fields["ts_ms"])
        case None => Err(BadTimestamp)
        case Some(ts) =>
          if "type" !in j.fields then Err(MissingField("type"))
          else
            var payload := Get(j.fields, "payload").GetOr(JNull);
            Ok(Some(Event(ts, j.fields["type"], OrEmptyObject(payload))))
  }

  /**
   * The events of `lines` in file order, or the first line that raises.
   */
  function ParseLines(lines: seq<Line>): (r: Result<seq<Event>, ReadError>)
    ensures r.Ok? <==> forall i :: 0 <= i < |lines| ==> DecodeLine(lines[i]).Ok?
    ensures r.Err? ==>
      (r.error.lineIndex < |lines|
       && DecodeLine(lines[r.error.lineIndex]) == Err(r.error.fault)
       && forall i :: 0 <= i < r.error.lineIndex ==> DecodeLine(lines[i]).Ok?)
    ensures r.Ok? ==> |r.value| <= |lines|
  {
    if |lines| == 0 then Ok([])
    else ParseStep(ParseLines(lines[..|lines| - 1]), lines[|lines| - 1], |lines| - 1)
  }

  /** The events one line contributes once it decodes: none for a blank line. */
  function Decoded(l: Line): seq<Event> {
    match DecodeLine(l)
    case Ok(Some(ev)) => [ev]
    case _ => []
  }

  /** Reference description of a successful read: every line's event, front to back. */
  function EventsOf(lines: seq<Line>): seq<Event> {
    if |lines| == 0 then [] else Decoded(lines[0]) + EventsOf(lines[1..])
  }

  /** A successful read returns exactly the decoded events of the lines, in file order. */
  lemma {:induction false} ParseLinesEvents(lines: seq<Line>)
    requires ParseLines(lines).Ok?
    ensures ParseLines(lines).value == EventsOf(lines)
  {
    if |lines| > 0 {
      var head := [lines[0]];
      assert head[..0] == [];
      assert ParseLines(head) == ParseStep(Ok([]), lines[0], 0);
      assert ParseLines(head) == Ok(Decoded(lines[0])) by {
        if DecodeLine(lines[0]).Ok? && DecodeLine(lines[0]).value.Some? {
          assert [] + [DecodeLine(lines[0]).value.value] == [DecodeLine(lines[0]).value.value];
        }
      }
      assert lines == head + lines[1..];
      ParseLinesAppend(head, lines[1..]);
      assert forall i :: 0 <= i < |lines[1..]| ==> DecodeLine(lines[1..][i]).Ok? by {
        forall i | 0 <= i < |lines[1..]| ensures DecodeLine(lines[1..][i]).Ok? {
          assert lines[1..][i] == lines[i + 1];
        }
      }
      ParseLinesEvents(lines[1..]);
    }
  }

  /** The events so far extended by line `n`, or the error already met. */
  function ParseStep(prev: Result<seq<Event>, ReadError>, l: Line, n: nat): Result<seq<Event>, ReadError> {
    match prev
    case Err(e) => Err(e)
    case Ok(evs) =>
      match DecodeLine(l)
      case Err(fault) => Err(ReadError(n, fault))
      case Ok(None) => Ok(evs)
      case Ok(Some(ev)) => Ok(evs + [ev])
  }

  /**
   * `read_jsonl`: a missing file reads as no events; otherwise every line
   * is decoded and the events are stably sorted by timestamp.
   */
  function ReadJsonl(f: LogFile): (r: Result<seq<Event>, ReadError>)
    ensures f.Missing? ==> r == Ok([])
    ensures f.Present? ==> (r.Ok? <==> ParseLines(f.lines).Ok?)
    ensures f.Present? && r.Err? ==> r == Err(ParseLines(f.lines).error)
    ensures r.Ok? ==> SortedByTs(r.value)
    ensures r.Ok? && f.Present? ==> multiset(r.value) == multiset(ParseLines(f.lines).value)
  {
    match f
    case Missing => Ok([])
    case Present(lines) =>
      match ParseLines(lines)
      case Err(e) => Err(e)
      case Ok(evs) => Ok(SortByTs(evs))
  }

  /** Stability of the read: events sharing a timestamp come back in file order. */
  lemma ReadJsonlStable(f: LogFile, k: int)
    requires f.Present? && ParseLines(f.lines).Ok?
    ensures WithTs(ReadJsonl(f).value, k) == WithTs(ParseLines(f.lines).value, k)
  {
    SortByTsStable(ParseLines(f.lines).value, k);
  }

  /** The line `append` writes decodes to the same timestamp, type and (normalised) payload. */
  lemma EncodeEventDecodes(ev: Event)
    ensures DecodeLine(EncodeEvent(ev)) == Ok(Some(NormalizePayload(ev)))
  {
  }

  /** The result of reading lines that follow `prior` events and `offset` lines. */
  function Shift(r: Result<seq<Event>, ReadError>, prior: seq<Event>, offset: nat): Result<seq<Event>, ReadError> {
    match r
    case Ok(evs) => Ok(prior + evs)
    case Err(e) => Err(ReadError(offset + e.lineIndex, e.fault))
  }

  lemma ParseStepShift(r: Result<seq<Event>, ReadError>, prior: seq<Event>, offset: nat, l: Line, n: nat)
    ensures ParseStep(Shift(r, prior, offset), l, offset + n) == Shift(ParseStep(r, l, n), prior, offset)
  {
    if r.Ok? && DecodeLine(l).Ok? && DecodeLine(l).value.Some? {
      assert prior + r.value + [DecodeLine(l).value.value] == prior + (r.value + [DecodeLine(l).value.value]);
    }
  }

  /** A read is the read of all lines but the last, extended by the last. */
  lemma {:induction false} ParseLinesLast(lines: seq<Line>)
    requires |lines| > 0
    ensures ParseLines(lines) == ParseStep(ParseLines(lines[..|lines| - 1]), lines[|lines| - 1], |lines| - 1)
  {
  }

  /** Reading `a + b` is reading `a`, then `b` with its line numbers shifted by `|a|`. */
  lemma {:induction false} ParseLinesAppend(a: seq<Line>, b: seq<Line>)
    requires ParseLines(a).Ok?
    ensures ParseLines(a + b) == Shift(ParseLines(b), ParseLines(a).value, |a|)
  {
    if |b| == 0 {
      assert a + b == a;
      assert ParseLines(a).value + [] == ParseLines(a).value;
    } else {
      ParseLinesAppend(a, b[..|b| - 1]);
      ParseLinesAppendStep(a, b);
    }
  }

  /** The inductive step of `ParseLinesAppend`: one more line of `b`. */
  lemma {:induction false} ParseLinesAppendStep(a: seq<Line>, b: seq<Line>)
    requires |b| > 0 && ParseLines(a).Ok?
    requires ParseLines(a + b[..|b| - 1]) == Shift(ParseLines(b[..|b| - 1]), ParseLines(a).value, |a|)
    ensures ParseLines(a + b) == Shift(ParseLines(b), ParseLines(a).value, |a|)
  {
    var n := |b| - 1;
    var ab := a + b;
    var prior := ParseLines(a).value;
    var front := ParseLines(b[..n]);
    assert ab[..|ab| - 1] == a + b[..n];
    assert ab[|ab| - 1] == b[n];
    ParseLinesLast(ab);
    assert ParseLines(ab) == ParseStep(Shift(front, prior, |a|), b[n], |a| + n);
    ParseStepShift(front, prior, |a|, b[n], n);
    ParseLinesLast(b);
  }

  function NormalizeAll(evs: seq<Event>): (r: seq<Event>)
    ensures |r| == |evs|
    ensures forall i :: 0 <= i < |evs| ==> r[i] == NormalizePayload(evs[i])
  {
    if |evs| == 0 then [] else [NormalizePayload(evs[0])] + NormalizeAll(evs[1..])
  }

  lemma ParseLinesSnoc(ls: seq<Line>, l: Line, prior: seq<Event>, ev: Event)
    requires ParseLines(ls) == Ok(prior)
    requires DecodeLine(l) == Ok(Some(ev))
    ensures ParseLines(ls + [l]) == Ok(prior + [ev])
  {
    assert (ls + [l])[..|ls|] == ls;
  }

  lemma {:induction false} ParseEncodedAll(evs: seq<Event>)
    ensures ParseLines(EncodeAll(evs)) == Ok(NormalizeAll(evs))
  {
    if |evs| > 0 {
      ParseEncodedAll(evs[1..]);
      var head := [EncodeEvent(evs[0])];
      EncodeEventDecodes(evs[0]);
      ParseLinesSnoc([], EncodeEvent(evs[0]), [], NormalizePayload(evs[0]));
      assert [] + [EncodeEvent(evs[0])] == head;
      assert [] + [NormalizePayload(evs[0])] == [NormalizePayload(evs[0])];
      assert ParseLines(head) == Ok([NormalizePayload(evs[0])]);
      ParseLinesAppend(head, EncodeAll(evs[1..]));
      assert EncodeAll(evs) == head + EncodeAll(evs[1..]);
      assert NormalizeAll(evs) == [NormalizePayload(evs[0])] + NormalizeAll(evs[1..]);
    }
  }

  /**
   * Round trip: events written with `extend` onto a readable log read back
   * as the old events followed by the new ones, stably sorted by timestamp,
   * with falsy payloads read back as `{}`.
   */
  lemma ExtendThenRead(f: LogFile, evs: seq<Event>)
    requires ParseLines(LinesOf(f)).Ok?
    ensures ReadJsonl(Extend(f, evs)) == Ok(SortByTs(ParseLines(LinesOf(f)).value + NormalizeAll(evs)))
  {
    ParseEncodedAll(evs);
    ParseLinesAppend(LinesOf(f), EncodeAll(evs));
  }

  /** One `append` adds exactly one event, read back after the old ones before sorting. */
  lemma AppendThenRead(f: LogFile, ev: Event)
    requires ParseLines(LinesOf(f)).Ok?
    ensures |LinesOf(Append(f, ev))| == |LinesOf(f)| + 1
    ensures ReadJsonl(Append(f, ev)) == Ok(SortByTs(ParseLines(LinesOf(f)).value + [NormalizePayload(ev)]))
  {
    ExtendThenRead(f, [ev]);
    assert EncodeAll([ev]) == [EncodeEvent(ev)];
    assert NormalizeAll([ev]) == [NormalizePayload(ev)];
    assert Extend(f, [ev]) == Append(f, ev);
  }

  /** An object payload survives the trip unchanged. */
  lemma {:induction false} NormalizeObjects(evs: seq<Event>)
    requires forall i :: 0 <= i < |evs| ==> evs[i].payload.JObj?
    ensures NormalizeAll(evs) == evs
  {
  }

  /** From no file: what `extend` writes, `read_jsonl` returns, in stable timestamp order. */
  lemma FreshLogRoundTrip(evs: seq<Event>)
    requires forall i :: 0 <= i < |evs| ==> evs[i].payload.JObj?
    ensures ReadJsonl(Extend(Missing, evs)) == Ok(SortByTs(evs))
  {
    ExtendThenRead(Missing, evs);
    NormalizeObjects(evs);
    assert [] + evs == evs;
  }

  /** `extend` of several events is one `append`, then `extend` of the rest. */
  lemma ExtendStep(f: LogFile, evs: seq<Event>)
    requires |evs| > 0
    ensures Extend(f, evs) == Extend(Append(f, evs[0]), evs[1..])
  {
    assert EncodeAll(evs) == [EncodeEvent(evs[0])] + EncodeAll(evs[1..]);
    assert LinesOf(f) + EncodeAll(evs) == (LinesOf(f) + [EncodeEvent(evs[0])]) + EncodeAll(evs[1..]);
  }

  /** `extend` writes the same lines as one `append` per event. */
  lemma {:induction false} ExtendIsAppendEach(f: LogFile, evs: seq<Event>)
    requires f.Present? || |evs| > 0
    ensures Extend(f, evs) == AppendEach(f, evs)
    decreases |evs|
  {
    if |evs| > 0 {
      var g := Append(f, evs[0]);
      ExtendStep(f, evs);
      if |evs| > 1 {
        ExtendIsAppendEach(g, evs[1..]);
      } else {
        assert LinesOf(g) + EncodeAll([]) == LinesOf(g);
      }
    } else {
      assert LinesOf(f) + EncodeAll(evs) == LinesOf(f);
    }
  }

  /** `extend` of nothing still creates the file, which reads as empty like the missing file. */
  lemma ExtendNothing(f: LogFile)
    ensures ReadJsonl(Extend(f, [])) == ReadJsonl(AppendEach(f, []))
  {
    assert LinesOf(f) + EncodeAll([]) == LinesOf(f);
    if f.Missing? {
      assert ParseLines([]) == Ok([]);
    }
  }
}

=== FILE: records.dfy ===
/**
 * The output side of the candle builders: the JSON record written for each
 * candle (`write_candles_jsonl` in `kalshi_bot/io/candles.py` and
 * `candle_to_record` in `scripts/live_15m_candles.py`) and the summary the
 * batch writer returns.
 */
module CandleRecords {
  import opened Base
  import opened Bucketing
  import opened Candles

  const Tag5m: string := "CANDLE_5M"
  const Tag15m: string := "CANDLE_15M"

  /** One output line: the `type` tag and the ten candle fields. */
  datatype CandleRecord = CandleRecord(
    kind: string,
    candleStartMs: int,
    candleStartLocal: LocalStamp,
    symbol: string,
    open: real,
    high: real,
    low: real,
    close: real,
    ticks: nat,
    firstTsMs: int,
    lastTsMs: int)

  /**
   * `candle_to_record` and the dict `write_candles_jsonl` dumps: the tag
   * asked for, then the ten candle fields copied unchanged.
   */
  function ToRecord(c: Candle, kind: string): (r: CandleRecord)
    ensures r.kind == kind && FromRecord(r) == c
  {
    CandleRecord(kind, c.startMs, c.startLocal, c.symbol, c.open, c.high, c.low, c.close,
                 c.ticks, c.firstTsMs, c.lastTsMs)
  }

  /** The candle a record describes, the tag dropped. */
  function FromRecord(r: CandleRecord): Candle {
    Candle(r.candleStartMs, r.candleStartLocal, r.symbol, r.open, r.high, r.low, r.close,
           r.ticks, r.firstTsMs, r.lastTsMs)
  }

  /** Distinct candles give distinct records under the same tag, and the two tags never collide. */
  lemma ToRecordInjective(c: Candle, d: Candle, k1: string, k2: string)
    ensures ToRecord(c, k1) == ToRecord(d, k2) <==> c == d && k1 == k2
  {
  }

  function Records(cs: seq<Candle>, kind: string): (rs: seq<CandleRecord>)
    ensures |rs| == |cs|
    ensures forall i :: 0 <= i < |cs| ==> rs[i] == ToRecord(cs[i], kind)
  {
    if |cs| == 0 then [] else [ToRecord(cs[0], kind)] + Records(cs[1..], kind)
  }

  /** One more candle adds one more record at the end. */
  lemma RecordsSnoc(cs: seq<Candle>, c: Candle, kind: string)
    ensures Records(cs + [c], kind) == Records(cs, kind) + [ToRecord(c, kind)]
  {
    assert (cs + [c])[..|cs|] == cs;
  }

  /** What `write_candles_jsonl` returns besides the output path. */
  datatype WriteSummary = WriteSummary(candles: nat, first: Option<int>, last: Option<int>)

  /**
   * `write_candles_jsonl`: one "CANDLE_5M" record per candle in order, the
   * count, and the first and last bucket starts (None for no candles).
   */
  method WriteCandlesJsonl(candles: seq<Candle>) returns (written: seq<CandleRecord>, summary: WriteSummary)
    ensures |written| == |candles|
    ensures forall i :: 0 <= i < |written| ==> FromRecord(written[i]) == candles[i] && written[i].kind == Tag5m
    ensures summary.candles == |candles|
    ensures summary.first.None? <==> |candles| == 0
    ensures summary.last.None? <==> |candles| == 0
    ensures |candles| > 0 ==> summary.first == Some(candles[0].startMs) && summary.last == Some(Last(candles).startMs)
  {
    var n: nat := 0;
    var firstStart: Option<int> := None;
    var lastStart: Option<int> := None;
    written := [];
    var i := 0;
    while i < |candles|
      invariant 0 <= i <= |candles|
      invariant n == i && |written| == i
      invariant forall k :: 0 <= k < i ==> written[k] == ToRecord(candles[k], Tag5m)
      invariant i == 0 ==> firstStart.None? && lastStart.None?
      invariant i > 0 ==> firstStart == Some(candles[0].startMs) && lastStart == Some(candles[i - 1].startMs)
    {
      var c := candles[i];
      n := n + 1;
      if firstStart.None? {
        firstStart := Some(c.startMs);
      }
      lastStart := Some(c.startMs);
      written := written + [ToRecord(c, Tag5m)];
      i := i + 1;
    }
    summary := WriteSummary(n, firstStart, lastStart);
  }
}

=== FILE: replay.dfy ===
/**
 * The replay engine (`kalshi_bot/sim/replay.py`): read the event log and
 * feed every event, in the order read, to a handler that updates a bot
 * state started fresh. The handler's own closure state (such as a paper
 * executor) is threaded through as a context value `X`.
 */
module Replay {
  import opened Base
  import opened Events
  import opened State
  import opened Recorder
  import opened RecorderLog

  /** Playback speed; the run does not sleep, so it is carried but never read. */
  datatype ReplayConfig = ReplayConfig(speed: real)

  const DefaultReplayConfig: ReplayConfig := ReplayConfig(50.0)

  /** The handler's signature: one event, the bot state and the context in, both updated out. */
  type Handler<!X> = (Event, BotState, X) -> (BotState, X)

  /** The `for ev in events: on_event(ev, st)` loop, as a left fold. */
  function Fold<X>(events: seq<Event>, st: BotState, ctx: X, h: Handler<X>): (BotState, X)
    decreases |events|
  {
    if |events| == 0 then (st, ctx)
    else
      var next := h(events[0], st, ctx);
      Fold(events[1..], next.0, next.1, h)
  }

  /** The arguments of each handler call, one per event, in order. */
  function Calls<X>(events: seq<Event>, st: BotState, ctx: X, h: Handler<X>): (cs: seq<(BotState, X)>)
    ensures |cs| == |events|
    decreases |events|
  {
    if |events| == 0 then []
    else
      var next := h(events[0], st, ctx);
      [(st, ctx)] + Calls(events[1..], next.0, next.1, h)
  }

  /**
   * The handler is called once per event, in order, each call on the state
   * the previous one left, starting from the initial state; the fold's
   * result is what the last call returns.
   */
  lemma {:induction false} CallsChain<X>(events: seq<Event>, st: BotState, ctx: X, h: Handler<X>)
    ensures |events| > 0 ==> Calls(events, st, ctx, h)[0] == (st, ctx)
    ensures forall i :: 0 <= i < |events| - 1 ==>
      Calls(events, st, ctx, h)[i + 1] == h(events[i], Calls(events, st, ctx, h)[i].0, Calls(events, st, ctx, h)[i].1)
    ensures |events| > 0 ==>
      var last := Last(Calls(events, st, ctx, h));
      Fold(events, st, ctx, h) == h(Last(events), last.0, last.1)
    decreases |events|
  {
    if |events| > 0 {
      var next := h(events[0], st, ctx);
      var cs := Calls(events, st, ctx, h);
      var rest := Calls(events[1..], next.0, next.1, h);
      assert cs == [(st, ctx)] + rest;
      CallsChain(events[1..], next.0, next.1, h);
      if |events| > 1 {
        assert Last(cs) == Last(rest);
        assert Last(events) == Last(events[1..]);
      }
    }
  }

  /** Replaying a log in two parts is replaying the second from where the first left off. */
  lemma {:induction false} FoldAppend<X>(a: seq<Event>, b: seq<Event>, st: BotState, ctx: X, h: Handler<X>)
    ensures var mid := Fold(a, st, ctx, h);
      Fold(a + b, st, ctx, h) == Fold(b, mid.0, mid.1, h)
    decreases |a|
  {
    if |a| == 0 {
      assert a + b == b;
    } else {
      var next := h(a[0], st, ctx);
      assert (a + b)[0] == a[0] && (a + b)[1..] == a[1..] + b;
      FoldAppend(a[1..], b, next.0, next.1, h);
    }
  }

  /** `ReplayEngine(cfg).run(path, on_event)`: the log's read error, or the state after the last event. */
  function Run<X>(cfg: ReplayConfig, log: LogFile, ctx: X, h: Handler<X>): (r: Result<(BotState, X), ReadError>)
    ensures r.Ok? <==> ReadJsonl(log).Ok?
    ensures r.Err? ==> r.error == ReadJsonl(log).error
    ensures r.Ok? ==> r.value == Fold(ReadJsonl(log).value, Fresh, ctx, h)
  {
    match ReadJsonl(log)
    case Err(e) => Err(e)
    case Ok(events) => Ok(Fold(events, Fresh, ctx, h))
  }

  /** A missing log, or one with no events, returns the fresh state untouched. */
  lemma RunEmpty<X>(cfg: ReplayConfig, log: LogFile, ctx: X, h: Handler<X>)
    requires ReadJsonl(log) == Ok([])
    ensures Run(cfg, log, ctx, h) == Ok((Fresh, ctx))
  {
  }

  /** The events reach the handler in non-decreasing timestamp order. */
  lemma RunInTimeOrder<X>(cfg: ReplayConfig, log: LogFile, ctx: X, h: Handler<X>)
    requires Run(cfg, log, ctx, h).Ok?
    ensures var events := ReadJsonl(log).value;
      forall i, j :: 0 <= i <= j < |events| ==> events[i].tsMs <= events[j].tsMs
  {
  }

  /**
   * Only the order within each timestamp matters: two logs whose events
   * agree timestamp by timestamp, however the file interleaves different
   * timestamps, replay to the same result.
   */
  lemma RunIgnoresFileOrder<X>(cfg: ReplayConfig, l1: LogFile, l2: LogFile, ctx: X, h: Handler<X>)
    requires l1.Present? && l2.Present?
    requires ParseLines(l1.lines).Ok? && ParseLines(l2.lines).Ok?
    requires forall k :: WithTs(ParseLines(l1.lines).value, k) == WithTs(ParseLines(l2.lines).value, k)
    ensures Run(cfg, l1, ctx, h) == Run(cfg, l2, ctx, h)
  {
    forall k ensures WithTs(ReadJsonl(l1).value, k) == WithTs(ReadJsonl(l2).value, k) {
      ReadJsonlStable(l1, k);
      ReadJsonlStable(l2, k);
    }
    StableSortUnique(ReadJsonl(l1).value, ReadJsonl(l2).value);
  }

  /** The speed setting has no effect on the result. */
  lemma SpeedIrrelevant<X>(c1: ReplayConfig, c2: ReplayConfig, log: LogFile, ctx: X, h: Handler<X>)
    ensures Run(c1, log, ctx, h) == Run(c2, log, ctx, h)
  {
  }
}

=== FILE: state.dfy ===
/** Simulation state shared by the strategy and the paper executor (`kalshi_bot/state.py`). */
module State {
  import opened Base

  /** An order intent: side "buy" or "sell", price in cents, quantity, contract. */
  datatype Intent = Intent(side: string, price: int, qty: Option<int>, contract: string)

  /**
   * Inventory in YES contracts, simulated cash PnL, the last fair probability
   * (absent until the strategy first sets it) and the outstanding orders.
   */
  datatype BotState = BotState(
    invYes: real,
    pnlUsd: real,
    fairProb: Option<real>,
    openOrders: map<string, Intent>)

  /** The state every replay starts from; a value, so no two runs share its map. */
  const Fresh: BotState := BotState(0.0, 0.0, None, map[])
}

=== FILE: strategy.dfy ===
/**
 * The baseline market-making strategy (`kalshi_bot/strategy/mm_baseline.py`):
 * a lazily initialised fair probability and a clamped buy/sell quote around
 * it on every venue book event.
 */
module Strategy {
  import opened Base
  import opened Json
  import opened Decimal
  import opened Events
  import opened State

  /** Fair probability to start from, half-spread in cents and order size. */
  datatype MMConfig = MMConfig(baseFair: real, edgeCents: int, size: int)

  const DefaultConfig: MMConfig := MMConfig(0.5, 2, 1)

  /** `max(lo, min(hi, x))`. */
  function Clamp(x: real, lo: real, hi: real): (r: real)
    ensures lo <= hi ==> lo <= r <= hi
    ensures lo <= x <= hi ==> r == x
    ensures x < lo ==> r == lo
    ensures lo <= hi && hi < x ==> r == hi
  {
    var m := if x < hi then x else hi;
    if m > lo then m else lo
  }

  /** Python's `round` on a number: to the nearest integer, ties to the even one. */
  function RoundHalfEven(x: real): (n: int)
    ensures -0.5 <= x - n as real <= 0.5
    ensures (x - n as real == 0.5 || n as real - x == 0.5) ==> n % 2 == 0
  {
    var f := x.Floor;
    var d := x - f as real;
    if d < 0.5 then f
    else if d > 0.5 then f + 1
    else if f % 2 == 0 then f
    else f + 1
  }

  function Dist(a: real, b: real): real {
    if a >= b then a - b else b - a
  }

  /** The rounded value is a nearest integer: no integer is closer to `x`. */
  lemma RoundIsNearest(x: real, k: int)
    ensures Dist(x, RoundHalfEven(x) as real) <= Dist(x, k as real)
  {
    var n := RoundHalfEven(x);
    if k < n {
      assert k as real <= n as real - 1.0;
    } else if k > n {
      assert k as real >= n as real + 1.0;
    }
  }

  /** Whole numbers round to themselves. */
  lemma RoundOfWhole(k: int)
    ensures RoundHalfEven(k as real) == k
  {
    assert (k as real).Floor == k;
  }

  /** `int(round(_clamp(fair_prob, 0.01, 0.99) * 100))`. */
  function FairCents(fairProb: real): (c: int)
    ensures 1 <= c <= 99
    ensures Dist(Clamp(fairProb, 0.01, 0.99) * 100.0, c as real) <= 0.5
    ensures Dist(Clamp(fairProb, 0.01, 0.99) * 100.0, c as real) == 0.5 ==> c % 2 == 0
  {
    var y := Clamp(fairProb, 0.01, 0.99) * 100.0;
    assert 1.0 <= y <= 99.0;
    RoundHalfEven(y)
  }

  /** No whole cent is nearer the clamped fair probability than the one quoted. */
  lemma FairCentsNearest(fairProb: real, k: int)
    ensures var y := Clamp(fairProb, 0.01, 0.99) * 100.0;
      Dist(y, FairCents(fairProb) as real) <= Dist(y, k as real)
  {
    RoundIsNearest(Clamp(fairProb, 0.01, 0.99) * 100.0, k);
  }

  /** 0.506 is 50.6 cents, which rounds up to 51; 0.505 is a tie and rounds to the even 50. */
  lemma FairCentsExample()
    ensures FairCents(0.506) == 51
    ensures FairCents(0.505) == 50
  {
    assert (50.6).Floor == 50;
    assert (50.5).Floor == 50;
  }

  /** A fair probability already on a whole cent gives exactly that cent. */
  lemma FairCentsOfWholeCent(k: int)
    requires 1 <= k <= 99
    ensures FairCents(k as real / 100.0) == k
  {
    assert k as real / 100.0 * 100.0 == k as real;
    RoundOfWhole(k);
  }

  /** The quoted buy and sell prices around `fairCents`, clamped to the 1..99 cent range. */
  datatype Quote = Quote(bid: int, ask: int)

  function QuoteAround(fairCents: int, edge: int): (q: Quote)
    ensures q.bid >= 1 && q.ask <= 99
    ensures q.bid == fairCents - edge || q.bid == 1
    ensures q.ask == fairCents + edge || q.ask == 99
    ensures edge >= 0 && 1 <= fairCents <= 99 ==> 1 <= q.bid <= fairCents <= q.ask <= 99
    ensures fairCents - edge >= 1 ==> q.bid == fairCents - edge
    ensures fairCents + edge <= 99 ==> q.ask == fairCents + edge
  {
    Quote(if 1 >= fairCents - edge then 1 else fairCents - edge,
          if 99 <= fairCents + edge then 99 else fairCents + edge)
  }

  /** What `decide_orders` returns, with the state it leaves behind. */
  datatype Decision = Decision(intents: seq<Intent>, state: BotState)

  /** The fair probability after the lazy initialisation. */
  function InitFair(st: BotState, cfg: MMConfig): (st': BotState)
    ensures st'.fairProb.Some?
    ensures st.fairProb.Some? ==> st' == st
    ensures st.fairProb.None? ==> st' == st.(fairProb := Some(cfg.baseFair))
  {
    if st.fairProb.None? then st.(fairProb := Some(cfg.baseFair)) else st
  }

  /**
   * `decide_orders(ev, st, cfg)`. The fair probability is set first, on
   * every event; only a venue book is quoted, with a buy then a sell of
   * `size` YES contracts.
   */
  function DecideOrders(ev: Event, st: BotState, cfg: MMConfig): (d: Decision)
    ensures d.state.fairProb.Some?
    ensures d.state.invYes == st.invYes && d.state.pnlUsd == st.pnlUsd
    ensures d.state.openOrders == st.openOrders
    ensures st.fairProb.Some? ==> d.state.fairProb == st.fairProb
    ensures st.fairProb.None? ==> d.state.fairProb == Some(cfg.baseFair)
    ensures !ev.Is(VENUE_BOOK) ==> d.intents == []
    ensures ev.Is(VENUE_BOOK) ==>
      && |d.intents| == 2
      && d.intents[0].side == "buy" && d.intents[1].side == "sell"
      && d.intents[0].qty == Some(cfg.size) && d.intents[1].qty == Some(cfg.size)
      && d.intents[0].contract == "YES" && d.intents[1].contract == "YES"
      && 1 <= d.intents[0].price && d.intents[1].price <= 99
      && (cfg.edgeCents >= 0 ==> d.intents[0].price <= d.intents[1].price)
    ensures ev.Is(VENUE_BOOK) ==>
      var q := QuoteAround(FairCents(d.state.fairProb.value), cfg.edgeCents);
      d.intents[0].price == q.bid && d.intents[1].price == q.ask
  {
    var st' := InitFair(st, cfg);
    if ev.Is(EXTERNAL_PRICE) then Decision([], st')
    else if !ev.Is(VENUE_BOOK) then Decision([], st')
    else
      var q := QuoteAround(FairCents(st'.fairProb.value), cfg.edgeCents);
      Decision([Intent("buy", q.bid, Some(cfg.size), "YES"), Intent("sell", q.ask, Some(cfg.size), "YES")], st')
  }

  /** The quote depends on the fair probability only: book, inventory and PnL are not read. */
  lemma DecideReadsOnlyFair(ev: Event, st1: BotState, st2: BotState, cfg: MMConfig)
    requires st1.fairProb == st2.fairProb
    ensures DecideOrders(ev, st1, cfg).intents == DecideOrders(ev, st2, cfg).intents
  {
  }

  /** Once the fair probability is set, a second venue book quotes exactly what the first did. */
  lemma RepeatedBooksQuoteAlike(ev1: Event, ev2: Event, st: BotState, cfg: MMConfig)
    requires ev1.Is(VENUE_BOOK) && ev2.Is(VENUE_BOOK)
    ensures var d := DecideOrders(ev1, st, cfg);
      DecideOrders(ev2, d.state, cfg) == d
  {
  }

  /** With the defaults a venue book on a fresh state quotes buy 48 and sell 52, one contract each. */
  lemma DefaultQuoteExample(ev: Event)
    requires ev.Is(VENUE_BOOK)
    ensures DecideOrders(ev, Fresh, DefaultConfig).intents
         == [Intent("buy", 48, Some(1), "YES"), Intent("sell", 52, Some(1), "YES")]
  {
    FairCentsOfWholeCent(50);
    assert 50 as real / 100.0 == 0.5;
  }

  /** The `open_orders` key `on_event` files the `i`-th intent of an event under. */
  function IntentKey(tsMs: int, i: nat): string {
    "intent:" + IntToString(tsMs) + ":" + NatToString(i)
  }

  lemma PrefixCancel(p: string, a: string, b: string)
    ensures p + a == p + b <==> a == b
  {
    if p + a == p + b {
      assert a == (p + a)[|p|..];
      assert b == (p + b)[|p|..];
    }
  }

  /** Keys of one event differ for different positions. */
  lemma IntentKeyInjective(tsMs: int, i: nat, j: nat)
    ensures IntentKey(tsMs, i) == IntentKey(tsMs, j) <==> i == j
  {
    PrefixCancel("intent:" + IntToString(tsMs) + ":", NatToString(i), NatToString(j));
    NatToStringInjective(i, j);
  }

  /**
   * The `for i, intent in enumerate(intents)` loop: each intent filed under
   * `intent:{ts}:{i}`; nothing is removed and no other key is touched.
   */
  method FileIntents(orders: map<string, Intent>, tsMs: int, intents: seq<Intent>)
    returns (r: map<string, Intent>)
    ensures forall i :: 0 <= i < |intents| ==>
      IntentKey(tsMs, i) in r && r[IntentKey(tsMs, i)] == intents[i]
    ensures forall k :: k in r <==> k in orders || exists i :: 0 <= i < |intents| && k == IntentKey(tsMs, i)
    ensures forall k :: k in orders && (forall i :: 0 <= i < |intents| ==> k != IntentKey(tsMs, i)) ==>
      r[k] == orders[k]
  {
    r := orders;
    var i := 0;
    while i < |intents|
      invariant 0 <= i <= |intents|
      invariant forall j :: 0 <= j < i ==> IntentKey(tsMs, j) in r && r[IntentKey(tsMs, j)] == intents[j]
      invariant forall k :: k in r <==> k in orders || exists j :: 0 <= j < i && k == IntentKey(tsMs, j)
      invariant forall k :: k in orders && (forall j :: 0 <= j < i ==> k != IntentKey(tsMs, j)) ==>
        r[k] == orders[k]
    {
      forall j | 0 <= j < i
        ensures IntentKey(tsMs, j) != IntentKey(tsMs, i)
      {
        IntentKeyInjective(tsMs, i, j);
      }
      r := r[IntentKey(tsMs, i) := intents[i]];
      i := i + 1;
    }
  }

  /** `on_event`: `decide_orders`, then its intents filed into `open_orders`. */
  method OnEvent(ev: Event, st: BotState, cfg: MMConfig) returns (st': BotState)
    ensures var d := DecideOrders(ev, st, cfg);
      && st'.fairProb == d.state.fairProb && st'.invYes == st.invYes && st'.pnlUsd == st.pnlUsd
      && (forall i :: 0 <= i < |d.intents| ==>
            IntentKey(ev.tsMs, i) in st'.openOrders && st'.openOrders[IntentKey(ev.tsMs, i)] == d.intents[i])
      && (forall k :: k in st'.openOrders <==>
            k in st.openOrders || exists i :: 0 <= i < |d.intents| && k == IntentKey(ev.tsMs, i))
      && (forall k :: k in st.openOrders && (forall i :: 0 <= i < |d.intents| ==> k != IntentKey(ev.tsMs, i)) ==>
            st'.openOrders[k] == st.openOrders[k])
  {
    var d := DecideOrders(ev, st, cfg);
    var orders := FileIntents(d.state.openOrders, ev.tsMs, d.intents);
    st' := d.state.(openOrders := orders);
  }
}

=== FILE: ticks.dfy ===
/**
 * Reading reference-price ticks from JSONL lines
 * (`parse_external_price_tick` and `iter_ticks` in `kalshi_bot/io/candles.py`).
 */
module Ticks {
  import opened Base
  import opened Json
  import opened Events

  /** A reference-price sample; provider and symbol default to "". */
  datatype PriceTick = PriceTick(tsMs: int, mid: real, provider: string, symbol: string)

  /** The exception the source lets escape: `.get` on a decoded value that is not an object. */
  datatype ParseCrash = AttributeError

  /** `payload = obj.get("payload") or {}`. */
  function PayloadOf(obj: map<string, Json>): Json {
    OrEmptyObject(Get(obj, "payload").GetOr(JNull))
  }

  /** `str(payload.get(key, ""))`. */
  function TextField(payload: map<string, Json>, key: string): string {
    PyStr(Get(payload, key).GetOr(JStr("")))
  }

  /**
   * The tick an EXTERNAL_PRICE object describes, or `None` when `ts_ms` or
   * `mid` is missing or fails to convert (the caught KeyError, TypeError and
   * ValueError). A payload that is not an object has no `mid`.
   */
  function TickOfObject(obj: map<string, Json>): Option<PriceTick> {
    if "ts_ms" !in obj then None
    else match ToInt(obj["ts_ms"])
      case None => None
      case Some(ts) =>
        var payload := PayloadOf(obj);
        if !payload.JObj? || "mid" !in payload.fields then None
        else match ToFloat(payload.fields["mid"])
          case None => None
          case Some(mid) =>
            Some(PriceTick(ts, mid, TextField(payload.fields, "provider"), TextField(payload.fields, "symbol")))
  }

  predicate IsExternalPrice(obj: map<string, Json>) {
    Get(obj, "type") == Some(JStr(TypeName(EXTERNAL_PRICE)))
  }

  /**
   * `parse_external_price_tick` as written: `obj.get("type")` runs on
   * whatever `json.loads` returned, so a line holding a JSON array, string,
   * number, boolean or null raises AttributeError instead of yielding `None`.
   */
  function ParseTickAsWritten(l: Line): (r: Result<Option<PriceTick>, ParseCrash>)
    ensures r.Err? <==> l.Value? && !l.json.JObj?
    ensures l.Blank? || l.Garbage? ==> r == Ok(None)
    ensures r.Ok? && r.value.Some? ==> l.Value? && IsExternalPrice(l.json.fields)
  {
    match l
    case Blank => Ok(None)
    case Garbage => Ok(None)
    case Value(j) =>
      if !j.JObj? then Err(AttributeError)
      else if !IsExternalPrice(j.fields) then Ok(None)
      else Ok(TickOfObject(j.fields))
  }

  /**
   * `parse_external_price_tick` as its contract describes it: `None` for
   * every line that is not a usable EXTERNAL_PRICE record.
   */
  function ParseTick(l: Line): (r: Option<PriceTick>)
    ensures l.Blank? || l.Garbage? ==> r.None?
    ensures l.Value? && !l.json.JObj? ==> r.None?
    ensures l.Value? && l.json.JObj? && !IsExternalPrice(l.json.fields) ==> r.None?
    ensures l.Value? && l.json.JObj? && "ts_ms" !in l.json.fields ==> r.None?
    ensures r.Some? ==>
      (l.Value? && l.json.JObj? && "ts_ms" in l.json.fields
       && ToInt(l.json.fields["ts_ms"]) == Some(r.value.tsMs)
       && PayloadOf(l.json.fields).JObj?
       && "mid" in PayloadOf(l.json.fields).fields
       && ToFloat(PayloadOf(l.json.fields).fields["mid"]) == Some(r.value.mid))
    ensures r.Some? ==>
      (("provider" !in PayloadOf(l.json.fields).fields ==> r.value.provider == "")
       && ("symbol" !in PayloadOf(l.json.fields).fields ==> r.value.symbol == ""))
  {
    match l
    case Value(j) =>
      if j.JObj? && IsExternalPrice(j.fields) then TickOfObject(j.fields) else None
    case _ => None
  }

  /** The two agree except on the lines where the source raises. */
  lemma ParseTickAgrees(l: Line)
    ensures ParseTickAsWritten(l).Err? <==> (l.Value? && !l.json.JObj?)
    ensures ParseTickAsWritten(l).Ok? ==> ParseTickAsWritten(l).value == ParseTick(l)
  {
  }

  /**
   * Conversely, an EXTERNAL_PRICE object whose `ts_ms` and payload `mid`
   * convert always yields its tick, provider and symbol as `str()` renders them.
   */
  lemma ParseTickComplete(fields: map<string, Json>, ts: int, mid: real)
    requires IsExternalPrice(fields) && "ts_ms" in fields && ToInt(fields["ts_ms"]) == Some(ts)
    requires PayloadOf(fields).JObj? && "mid" in PayloadOf(fields).fields
    requires ToFloat(PayloadOf(fields).fields["mid"]) == Some(mid)
    ensures var p := PayloadOf(fields).fields;
      ParseTick(Value(JObj(fields))) == Some(PriceTick(ts, mid, TextField(p, "provider"), TextField(p, "symbol")))
  {
  }

  /** A concrete line on which the source raises: the JSON array `[]`. */
  lemma ParseTickCrashExample()
    ensures ParseTickAsWritten(Value(JArr([]))) == Err(AttributeError)
    ensures ParseTick(Value(JArr([]))) == None
  {
  }

  /** The ticks of a sequence of lines, in line order (`iter_ticks` over one file). */
  function TicksOf(lines: seq<Line>): (ts: seq<PriceTick>)
    ensures |ts| <= |lines|
  {
    if |lines| == 0 then []
    else match ParseTick(lines[0])
      case Some(t) => [t] + TicksOf(lines[1..])
      case None => TicksOf(lines[1..])
  }

  /** A tick is read exactly when some line parses to it. */
  lemma {:induction false} TicksOfMembers(lines: seq<Line>)
    ensures forall t :: t in TicksOf(lines) <==> exists i :: 0 <= i < |lines| && ParseTick(lines[i]) == Some(t)
  {
    if |lines| > 0 {
      TicksOfMembers(lines[1..]);
      assert forall i :: 0 < i < |lines| ==> lines[i] == lines[1..][i - 1];
      assert forall i :: 0 <= i < |lines[1..]| ==> lines[1..][i] == lines[i + 1];
    }
  }

  /** Reading lines in two parts yields the ticks of each part, in order. */
  lemma {:induction false} TicksOfAppend(a: seq<Line>, b: seq<Line>)
    ensures TicksOf(a + b) == TicksOf(a) + TicksOf(b)
  {
    if |a| > 0 {
      TicksOfAppend(a[1..], b);
      assert (a + b)[1..] == a[1..] + b;
      assert (a + b)[0] == a[0];
    } else {
      assert a + b == b;
    }
  }

  /**
   * `iter_ticks` over one file with the parser as written: the first line
   * holding a JSON value that is not an object raises out of the generator.
   */
  function TicksOfAsWritten(lines: seq<Line>): (r: Result<seq<PriceTick>, ParseCrash>)
    ensures r.Err? <==> exists i :: 0 <= i < |lines| && lines[i].Value? && !lines[i].json.JObj?
    ensures r.Ok? ==> r.value == TicksOf(lines)
  {
    if |lines| == 0 then Ok([])
    else
      match ParseTickAsWritten(lines[0])
      case Err(e) => Err(e)
      case Ok(o) =>
        match TicksOfAsWritten(lines[1..])
        case Err(e) =>
          ghost var i :| 0 <= i < |lines[1..]| && lines[1..][i].Value? && !lines[1..][i].json.JObj?;
          assert lines[i + 1] == lines[1..][i];
          Err(e)
        case Ok(rest) =>
          assert forall i :: 0 < i < |lines| ==> lines[i] == lines[1..][i - 1];
          Ok((if o.Some? then [o.value] else []) + rest)
  }

  /** `iter_ticks`: the files in order, each line through the parser, failures dropped. */
  function IterTicks(files: seq<seq<Line>>): seq<PriceTick> {
    if |files| == 0 then [] else TicksOf(files[0]) + IterTicks(files[1..])
  }

  /** Reading several files is reading their concatenation. */
  lemma {:induction false} IterTicksConcat(files: seq<seq<Line>>)
    ensures IterTicks(files) == TicksOf(Flatten(files))
  {
    if |files| > 0 {
      IterTicksConcat(files[1..]);
      TicksOfAppend(files[0], Flatten(files[1..]));
    }
  }
}
